=== FILE: README.md ===
# Transactional outbox and event subscriptions, modelled in Dafny

This project models the event-publishing core of a .NET microservice backend.

- **Outbox table.** `IntegrationEventLogEntry` rows record integration events. `IntegrationEventLogService` saves a row in the same database transaction as the business data. It later reads the transaction's unpublished rows back in creation order and moves rows between the four `EventStateEnum` states.
- **Resilient transaction.** `ResilientTransaction` runs a unit of work between `BeginTransaction` and `Commit` under an execution strategy that may re-run it after a transient failure.
- **Event bus subscriptions.** `EventBusBuilderExtensions` registers keyed handlers and `Configure<EventBusSubscriptionInfo>` callbacks. The callbacks build the name-to-type map and the serialiser options. `IIntegrationEventHandler<in T>` bridges an untyped `Handle` to the typed one by a cast.
- **Type names.** `GenericTypeExtensions.GetGenericTypeName` renders readable type names.

Everything is modelled with immutable values and pure functions:

- The `DbContext` becomes the table contents, a `seq<LogEntry>` in scan order.
- An exception becomes the `Failure` arm of a `Result`. A null the code checks for, or passes on, becomes `None`: the transaction given to `SaveEventAsync`, the context given to `ResilientTransaction.New`, the type `FirstOrDefault` finds. Nulls the code dereferences without a check are left out (see below).
- The JSON serialiser is a pair of functions passed in as a parameter.
- `Guid.NewGuid()` is a counter (`IdSource`). `DateTime.UtcNow` is a clock reading passed in.
- The action run by the execution strategy is a function of the snapshot, the open transaction and the attempt number.

Files, one module each:

| file | module | models |
|---|---|---|
| wrappers.dfy | Wrappers, Primitives, Exceptions | `Option`/`Result`, `Guid`, `DateTime`, C# `int` with wrap-around, the exceptions raised |
| strings.dfy | Strings | `EndsWith`, `IndexOf`, `string.Join`, `Split`, `Split(..).Last()` |
| clr_types.dfy | ClrTypes | `System.Type`: names, generic arguments, base-class chain |
| integration_event.dfy | Events | the `IntegrationEvent` record and its constructor |
| event_state.dfy | EventStates | `EventStateEnum` and its stored codes |
| transactions.dfy | Transactions | `IDbContextTransaction` (its id) |
| log_entry.dfy | LogEntries | `IntegrationEventLogEntry` |
| ordering.dfy | Ordering | `OrderBy` as a stable sort |
| log_service.dfy | EventLogService | `IntegrationEventLogService` and `IIntegrationEventLogService` |
| resilient_transaction.dfy | ResilientTransactions | `ResilientTransaction` and the retrying execution strategy |
| outbox.dfy | Outbox | a business write plus `SaveEventAsync` under `ResilientTransaction` |
| handlers.dfy | Handlers | `IIntegrationEventHandler<in T>` / `IIntegrationEventHandler` |
| subscriptions.dfy | Subscriptions | `EventBusSubscriptionInfo` and `EventBusBuilderExtensions` |
| generic_type_name.dfy | GenericTypeNames | `GetGenericTypeName` |

Two behaviours of the code are easy to misread, and the model keeps them as written:

- **Unresolvable event types are not skipped.** `RetrieveEventLogsPendingToPublishAsync` passes the `FirstOrDefault` result, possibly null, straight to `DeserializeJsonContent`, where `JsonSerializer.Deserialize` throws `ArgumentNullException`. The `Select` is lazy, so the exception reaches the caller's `foreach` at the first such row and the rows after it are never produced. `RetrievePending` yields one `Result` per pending row; `Enumerate` models the `foreach` over it, and `EventLogService.EnumeratePending` states where it stops. `EventLogService.UnsuffixedNeverResolves` shows when the failure is certain.
- **State transitions are not one-way.** `UpdateEventStatus` sets any state from any state, `NotPublished` included, and `EventLogService.AnyTransitionAllowed` proves it.

The execution strategy is `ExecutionStrategy(maxRetryCount)`. A count of 0 stands for the provider's default strategy, which runs the action once and lets its exception through. A retrying strategy that runs out of retries on a transient error throws `RetryLimitExceededException` wrapping the last error, modelled as `RetryLimitExceeded(inner)`.

## Model

| member | source | states |
|---|---|---|
| Primitives.Increment | backend/src/IntegrationEventLogEF/Services/IntegrationEventLogService.cs:133-134 | `TimesSent++` adds one below `int.MaxValue`, wraps to `int.MinValue` at it, and always agrees with +1 modulo 2^32 |
| Strings.IndexOf | backend/src/EventBus/Extensions/GenericTypeExtensions.cs:34 | `IndexOf('`')` is -1 exactly when the character is absent; otherwise it is the first position holding it |
| Strings.EndsWith | backend/src/IntegrationEventLogEF/Services/IntegrationEventLogService.cs:39 | a string ending with the suffix is the rest of it followed by the suffix |
| Strings.EndsWithAppend | backend/src/IntegrationEventLogEF/Services/IntegrationEventLogService.cs:39 | any prefix followed by the suffix ends with it (the converse of `EndsWith`'s contract) |
| Strings.JoinStarts | backend/src/EventBus/Extensions/GenericTypeExtensions.cs:25-29 | `string.Join` of no parts is empty; otherwise the result starts with the first part, and a separator follows it when there is a second |
| Strings.JoinEnds | backend/src/EventBus/Extensions/GenericTypeExtensions.cs:25-29 | `string.Join` of at least one part ends with the last part |
| Strings.Split | backend/src/IntegrationEventLogEF/IntegrationEventLogEntry.cs:44-45 | `Split('.')` yields at least one piece, no piece contains the separator, and joining the pieces with it gives back the string |
| Strings.SplitJoin | backend/src/EventBus/Extensions/GenericTypeExtensions.cs:25-29 | splitting a `string.Join` of separator-free pieces gives back the pieces (partner of `Split`) |
| Strings.LastSegment | backend/src/IntegrationEventLogEF/IntegrationEventLogEntry.cs:44-45 | `Split('.').Last()` is a separator-free suffix of the string, and is either the whole string or preceded by the separator |
| Strings.LastSegmentAfterSeparator | backend/src/IntegrationEventLogEF/IntegrationEventLogEntry.cs:44-45 | whatever precedes the last '.', the text after it is the short name |
| ClrTypes.SubtypeTransitive | backend/src/EventBus/Abstractions/IIntegrationEventHandler.cs:9-11 | a cast along the base-class chain composes: subtype of a subtype is a subtype |
| ClrTypes.FullName | backend/src/IntegrationEventLogEF/IntegrationEventLogEntry.cs:24 | `FullName` ends with the simple name; in a namespace it is the namespace, a '.', then the name; without one it is the name |
| ClrTypes.IsSubtypeOf | backend/src/EventBus/Abstractions/IIntegrationEventHandler.cs:26 | the cast succeeds to the type itself and to its direct base class; a type with no base class casts only to itself |
| ClrTypes.ShortNameOfFullName | backend/src/IntegrationEventLogEF/IntegrationEventLogEntry.cs:24-45 | the short name recovered from the stored `FullName` is the type's simple name |
| Events.NewEvent | backend/src/EventBus/Events/IntegrationEvent.cs:36-40 | a new event gets a fresh id, never issued before, and the current clock reading as creation date |
| Events.NewEvents | backend/src/EventBus/Events/IntegrationEvent.cs:36-40 | events constructed one after another have pairwise distinct ids, and each carries the clock reading at its construction |
| EventStates.Code | backend/src/IntegrationEventLogEF/EventStateEnum.cs:5-8 | every state is stored as a code in 0..3, and code 0 means `NotPublished` |
| EventStates.FromCode | backend/src/IntegrationEventLogEF/EventStateEnum.cs:5-8 | a stored code names a state exactly when it is in 0..3, and it names the state with that code |
| EventStates.CodeRoundTrip | backend/src/IntegrationEventLogEF/EventStateEnum.cs:5-8 | every state reads back from its code |
| EventStates.CodeInjective | backend/src/IntegrationEventLogEF/EventStateEnum.cs:5-8 | distinct states have distinct codes |
| EventStates.DeclaredCodes | backend/src/IntegrationEventLogEF/EventStateEnum.cs:5-8 | the declared values are 0, 1, 2, 3 in declaration order |
| LogEntries.NewEntry | backend/src/IntegrationEventLogEF/IntegrationEventLogEntry.cs:16-35 | a new row copies the event's id and creation date, stores its type's full name and its JSON under its runtime type, is `NotPublished` with no sends, and is tagged with the transaction |
| LogEntries.ShortName | backend/src/IntegrationEventLogEF/IntegrationEventLogEntry.cs:44-45 | `EventTypeShortName` has no '.', ends the stored type name, and follows its last '.' when there is one |
| LogEntries.DeserializeJsonContent | backend/src/IntegrationEventLogEF/IntegrationEventLogEntry.cs:65-72 | a null type throws `ArgumentNullException`; otherwise only the unmapped event property changes, to what the serialiser reads from the content |
| LogEntries.NewEntryShortName | backend/src/IntegrationEventLogEF/IntegrationEventLogEntry.cs:24-45 | a row's short name is its event's simple type name |
| LogEntries.NewEntryRoundTrip | backend/src/IntegrationEventLogEF/IntegrationEventLogEntry.cs:65-72 | with a lossless serialiser, deserialising a new row's content under the event's type gives back the event and changes nothing else |
| Ordering.InsertPermutes | backend/src/IntegrationEventLogEF/Services/IntegrationEventLogService.cs:58-59 | inserting adds exactly the one element: the result is a permutation of the input plus it |
| Ordering.Insert | backend/src/IntegrationEventLogEF/Services/IntegrationEventLogService.cs:58-59 | one insertion step of `OrderBy` lengthens the sequence by one |
| Ordering.InsertSplices | backend/src/IntegrationEventLogEF/Services/IntegrationEventLogService.cs:58-59 | inserting splices the element in at one position, with the input unchanged before and after it |
| Ordering.InsertSorted | backend/src/IntegrationEventLogEF/Services/IntegrationEventLogService.cs:58-59 | inserting into an ascending sequence keeps it ascending |
| Ordering.InsertWithKey | backend/src/IntegrationEventLogEF/Services/IntegrationEventLogService.cs:58-59 | insertion is stable: the new element goes after the elements with its key, and no other key's elements move relative to each other |
| Ordering.SortBy | backend/src/IntegrationEventLogEF/Services/IntegrationEventLogService.cs:58-59 | `OrderBy(key)` is an ascending permutation of its input that keeps equal-key elements in input order |
| EventLogService.KnownEventTypes | backend/src/IntegrationEventLogEF/Services/IntegrationEventLogService.cs:36-40 | the loaded event types are exactly the assembly types whose name ends in "IntegrationEvent" |
| EventLogService.NewService | backend/src/IntegrationEventLogEF/Services/IntegrationEventLogService.cs:31-41 | the service knows every suffixed assembly type and nothing else |
| EventLogService.FirstWithName | backend/src/IntegrationEventLogEF/Services/IntegrationEventLogService.cs:62-63 | `FirstOrDefault` is null exactly when no type has the name; otherwise it is the first type with that name |
| EventLogService.KnownTypeLookup | backend/src/IntegrationEventLogEF/Services/IntegrationEventLogService.cs:36-63 | a lookup among the known types agrees with a lookup among all assembly types for a suffixed name, and fails for any other name |
| EventLogService.Query | backend/src/IntegrationEventLogEF/Services/IntegrationEventLogService.cs:51-54 | the query holds every row of the transaction still `NotPublished`, with its multiplicity, and nothing else |
| EventLogService.IsPending | backend/src/IntegrationEventLogEF/Services/IntegrationEventLogService.cs:52-53 | a row is pending exactly when it belongs to the transaction and its stored state code is 0 (`NotPublished`) |
| EventLogService.PendingInOrder | backend/src/IntegrationEventLogEF/Services/IntegrationEventLogService.cs:51-59 | the rows retrieved are the pending rows of the transaction, by creation time, with ties in scan order |
| EventLogService.RetrievePending | backend/src/IntegrationEventLogEF/Services/IntegrationEventLogService.cs:47-67 | one element per pending row, in that order: the row with its event deserialised under the first known type matching its short name, or `ArgumentNullException` when no type matches |
| EventLogService.Enumerate | backend/src/IntegrationEventLogEF/Services/IntegrationEventLogService.cs:58-63 | a `foreach` over the lazy `Select` yields the successes before the first failure, in order, and throws that failure; it completes exactly when every element succeeds |
| EventLogService.EnumeratePending | backend/src/IntegrationEventLogEF/Services/IntegrationEventLogService.cs:47-67 | looping over the pending events completes exactly when every pending row's type resolves; otherwise it stops with `ArgumentNullException` at the first row that does not |
| EventLogService.EnumeratedInOrder | backend/src/IntegrationEventLogEF/Services/IntegrationEventLogService.cs:58-63 | the rows handed out before any failure are the first pending rows in creation order, unchanged but for the deserialised event |
| EventLogService.RetrieveEmpty | backend/src/IntegrationEventLogEF/Services/IntegrationEventLogService.cs:56-66 | nothing is returned exactly when the transaction has no unpublished row |
| EventLogService.UnsuffixedNeverResolves | backend/src/IntegrationEventLogEF/Services/IntegrationEventLogService.cs:36-63 | a pending row whose short name lacks the suffix always fails to deserialise |
| EventLogService.SaveEvent | backend/src/IntegrationEventLogEF/Services/IntegrationEventLogService.cs:74-92 | a null transaction throws `ArgumentNullException("transaction")` before any write; a taken key is rejected; otherwise exactly the new row is appended, and keys stay unique |
| EventLogService.SavedOnce | backend/src/IntegrationEventLogEF/Services/IntegrationEventLogService.cs:78-91 | after a save the event's id occurs exactly once, in an unpublished, never-sent row of the saving transaction |
| EventLogService.WithStatus | backend/src/IntegrationEventLogEF/Services/IntegrationEventLogService.cs:130-134 | the row gets the new state; the send count goes up by one for `InProgress` only; nothing else changes |
| EventLogService.TwoOccurrences | backend/src/IntegrationEventLogEF/Services/IntegrationEventLogService.cs:126-128 | a value found at two distinct positions of a sequence occurs at least twice in it; this gives `Single` its more-than-one-match failure |
| EventLogService.UpdateEventStatus | backend/src/IntegrationEventLogEF/Services/IntegrationEventLogService.cs:122-137 | `Single` succeeds exactly when one row has the key, failing with no-elements or more-than-one otherwise; only that row changes |
| EventLogService.MarkEventAsPublished | backend/src/IntegrationEventLogEF/Services/IntegrationEventLogService.cs:97-100 | the row becomes `Published` and its send count is unchanged |
| EventLogService.MarkEventAsInProgress | backend/src/IntegrationEventLogEF/Services/IntegrationEventLogService.cs:106-109 | the row becomes `InProgress` and one more send is counted, wrapping from `int.MaxValue` to `int.MinValue` as unchecked `TimesSent++` does |
| EventLogService.MarkEventAsFailed | backend/src/IntegrationEventLogEF/Services/IntegrationEventLogService.cs:114-117 | the row becomes `PublishedFailed` and its send count is unchanged |
| EventLogService.UpdateRepeatable | backend/src/IntegrationEventLogEF/Services/IntegrationEventLogService.cs:126-130 | an update that found its row once finds it again |
| EventLogService.UpdateIdempotent | backend/src/IntegrationEventLogEF/Services/IntegrationEventLogService.cs:122-137 | setting a state other than `InProgress` twice leaves the same table as setting it once |
| EventLogService.MarkPublishedOrFailedIdempotent | backend/src/IntegrationEventLogEF/Services/IntegrationEventLogService.cs:97-117 | marking published, or failed, a second time changes nothing |
| EventLogService.MarkInProgressTwiceCountsTwice | backend/src/IntegrationEventLogEF/Services/IntegrationEventLogService.cs:106-134 | every in-progress mark counts a send, so two marks add two to the count modulo 2^32, and exactly two below the top |
| EventLogService.AnyTransitionAllowed | backend/src/IntegrationEventLogEF/Services/IntegrationEventLogService.cs:122-130 | with unique keys, any existing row can be put into any state, `NotPublished` included |
| EventLogService.InProgressNoLongerPending | backend/src/IntegrationEventLogEF/Services/IntegrationEventLogService.cs:52-109 | a row marked in progress is no longer retrieved as pending |
| ResilientTransactions.New | backend/src/IntegrationEventLogEF/Utilities/ResilientTransaction.cs:7-12 | a null context throws `ArgumentNullException("context")`; otherwise the instance holds that context |
| ResilientTransactions.BegunAppend | backend/src/IntegrationEventLogEF/Utilities/ResilientTransaction.cs:19-23 | the transactions begun by two trace pieces are those of the first, then those of the second |
| ResilientTransactions.CommittedTrace | backend/src/IntegrationEventLogEF/Utilities/ResilientTransaction.cs:21-28 | begin, completed action, commit is a well-ordered trace with one transaction |
| ResilientTransactions.FailedTrace | backend/src/IntegrationEventLogEF/Utilities/ResilientTransaction.cs:21-25 | begin then a thrown action is a well-ordered trace with one transaction |
| ResilientTransactions.RetriedTrace | backend/src/IntegrationEventLogEF/Utilities/ResilientTransaction.cs:17-29 | a transiently failed attempt followed by a well-ordered re-run is well ordered |
| ResilientTransactions.CommitRuns | backend/src/IntegrationEventLogEF/Utilities/ResilientTransaction.cs:21-28 | an attempt whose action completes commits its result, in its own transaction, as the last step |
| ResilientTransactions.FailRuns | backend/src/IntegrationEventLogEF/Utilities/ResilientTransaction.cs:17-29 | an attempt whose action throws a non-transient exception, or a transient one with no retries left, rolls back and surfaces it: wrapped in `RetryLimitExceeded` when a retrying strategy gives up, unchanged otherwise |
| ResilientTransactions.RetryRuns | backend/src/IntegrationEventLogEF/Utilities/ResilientTransaction.cs:17-29 | a transient failure followed by a run from the next attempt is a run from this attempt, with one more transaction begun |
| ResilientTransactions.Attempt | backend/src/IntegrationEventLogEF/Utilities/ResilientTransaction.cs:17-29 | each attempt begins a fresh transaction and commits only right after the action completed; every attempt before the last threw a transient exception, so a success or a final exception ends the retries; the outcome is the last attempt's, and on failure the snapshot stays in place, the trace ends with the exception the last attempt threw, and the error surfaces as the strategy reports it; step by step the trace is exactly begin-and-throw for every earlier attempt, followed by the last attempt's begin and either its completion and commit or its exception |
| ResilientTransactions.Execute | backend/src/IntegrationEventLogEF/Utilities/ResilientTransaction.cs:14-30 | the execution is a run of the body from attempt 0: attempts re-run only after transient failures, the last attempt decides the outcome, a failure leaves the database as it was, surfaces that attempt's error and commits no transaction anywhere in the trace, and a success commits that attempt's result |
| ResilientTransactions.NoRetryRunsOnce | backend/src/IntegrationEventLogEF/Utilities/ResilientTransaction.cs:14-30 | without retries the action runs once, in one transaction, and the outcome mirrors it, its exception unwrapped |
| ResilientTransactions.Surfaced | backend/src/IntegrationEventLogEF/Utilities/ResilientTransaction.cs:17-19 | a retrying strategy wraps a transient error it gives up on in `RetryLimitExceeded`; every other error, and every error under the default strategy, surfaces unchanged |
| ResilientTransactions.RetriesExhausted | backend/src/IntegrationEventLogEF/Utilities/ResilientTransaction.cs:14-30 | when every attempt fails transiently, a retrying strategy begins `maxRetryCount + 1` transactions and throws `RetryLimitExceeded` wrapping the last attempt's error |
| ResilientTransactions.FirstSuccessCommitted | backend/src/IntegrationEventLogEF/Utilities/ResilientTransaction.cs:17-29 | after transient failures, the first attempt that completes is committed and no further transaction is begun |
| ResilientTransactions.FinalFailureStops | backend/src/IntegrationEventLogEF/Utilities/ResilientTransaction.cs:17-29 | after transient failures, the first non-transient exception ends the strategy: no further transaction, nothing committed, the exception surfaces unchanged |
| Outbox.AttemptCommitsBoth | backend/src/IntegrationEventLogEF/Services/IntegrationEventLogService.cs:74-91 | a successful unit of work holds the business write and exactly one unpublished row for the event, pending for its transaction |
| Outbox.OutboxAtomicity | backend/src/IntegrationEventLogEF/Utilities/ResilientTransaction.cs:14-30 | business data and event row commit together or not at all: a failed unit of work leaves the database as it was, so an event not saved before stays absent |
| Handlers.Handle | backend/src/EventBus/Abstractions/IIntegrationEventHandler.cs:25-26 | the untyped `Handle` runs the typed one on the same event when the cast succeeds and throws `InvalidCastException` otherwise |
| Handlers.HandlerAcceptsSubtypes | backend/src/EventBus/Abstractions/IIntegrationEventHandler.cs:9-26 | by contravariance, a handler of `T` takes any event of a subtype of `T` without a failed cast |
| Subscriptions.DefaultSerializerOptions | backend/src/EventBus/Abstractions/EventBusSubscriptionInfo.cs:36-46 | the default options always set a type-info resolver, whether reflection is enabled or not |
| Subscriptions.NewSubscriptionInfo | backend/src/EventBus/Abstractions/EventBusSubscriptionInfo.cs:21-28 | a new instance has no event types and a copy of the default options |
| Subscriptions.ApplyConfigure | backend/src/EventBus/Extensions/EventBusBuilderExtensions.cs:25-69 | a mapping callback sets one name and leaves the other names and the options alone; a JSON callback leaves the names alone |
| Subscriptions.HandlersFor | backend/src/EventBus/Extensions/EventBusBuilderExtensions.cs:53-56 | no more handlers are resolved for a key than registrations exist, and each one was registered under it |
| Subscriptions.HandlersForCounts | backend/src/EventBus/Extensions/EventBusBuilderExtensions.cs:53-56 | each handler type is resolved for a key exactly as many times as it was registered under it |
| Subscriptions.ResolveSubscriptionInfo | backend/src/EventBus/Abstractions/EventBusSubscriptionInfo.cs:21-28 | when every callback only maps names, the resolved instance keeps the default options |
| Subscriptions.ResolveMapsLast | backend/src/EventBus/Extensions/EventBusBuilderExtensions.cs:59-69 | a name is in the resolved map exactly when some callback maps it, and it maps to the type of the last callback that does |
| Subscriptions.ResolverSurvivesMappings | backend/src/EventBus/Abstractions/EventBusSubscriptionInfo.cs:27-46 | with only subscriptions registered, the resolved options are the defaults, type-info resolver included |
| Subscriptions.AddSubscription | backend/src/EventBus/Extensions/EventBusBuilderExtensions.cs:46-72 | one handler registration and one callback are added, and a collection whose handlers all take their key's events stays that way |
| Subscriptions.ConfigureJsonOptions | backend/src/EventBus/Extensions/EventBusBuilderExtensions.cs:20-31 | one callback is added and the handlers are untouched |
| Subscriptions.AddSubscriptionMapsName | backend/src/EventBus/Extensions/EventBusBuilderExtensions.cs:59-69 | after a subscription the resolved map sends `T.Name` to `T` (last one wins) and is otherwise unchanged, as are the options |
| Subscriptions.AddSubscriptionAppendsHandler | backend/src/EventBus/Extensions/EventBusBuilderExtensions.cs:53-56 | the new handler is appended under `T`'s key; every other key keeps its handlers |
| Subscriptions.AddSubscriptionTwice | backend/src/EventBus/Extensions/EventBusBuilderExtensions.cs:46-72 | subscribing a pair twice maps the name as once but registers the handler twice |
| Subscriptions.ConfigureJsonOnlyTouchesOptions | backend/src/EventBus/Extensions/EventBusBuilderExtensions.cs:20-31 | configuring JSON changes only the resolved options, by applying the callback to them |
| Subscriptions.EmptyBuilderResolvesEmpty | backend/src/EventBus/Abstractions/EventBusSubscriptionInfo.cs:21-28 | with no callbacks the instance has no event types and the default options |
| Subscriptions.RegisteredHandlersAcceptEvents | backend/src/EventBus/Extensions/EventBusBuilderExtensions.cs:46-56 | every handler registered under an event type takes any event of that type without a failed cast |
| GenericTypeNames.ArgumentNames | backend/src/EventBus/Extensions/GenericTypeExtensions.cs:27-28 | the generic arguments' raw names, in order |
| GenericTypeNames.GetGenericTypeName | backend/src/EventBus/Extensions/GenericTypeExtensions.cs:17-43 | a non-generic type gives its name; a generic one gives its name up to the first '`' and its argument names in angle brackets; a generic name without '`' throws `ArgumentOutOfRangeException` |
| GenericTypeNames.GetGenericTypeNameOfObject | backend/src/EventBus/Extensions/GenericTypeExtensions.cs:50-53 | the object overload renders the object's runtime type |
| GenericTypeNames.GenericNameParsesBack | backend/src/EventBus/Extensions/GenericTypeExtensions.cs:25-34 | the rendered name keeps the base name, and the text between its brackets splits at ',' into the argument names |
| GenericTypeNames.RenderedWithBase | backend/src/EventBus/Extensions/GenericTypeExtensions.cs:31-34 | a name of the form base`arity renders as base<args> |
| GenericTypeNames.ListExample | backend/src/EventBus/Extensions/GenericTypeExtensions.cs:13 | `List<int>` renders as "List<Int32>" |
| GenericTypeNames.DictionaryExample | backend/src/EventBus/Extensions/GenericTypeExtensions.cs:14 | `Dictionary<int,string>` renders as "Dictionary<Int32,String>" |
| GenericTypeNames.ListRendersArgumentName | backend/src/EventBus/Extensions/GenericTypeExtensions.cs:25-34 | `List<T>` renders with `T`'s raw name between the brackets |
| GenericTypeNames.NestedArgumentKeepsBacktick | backend/src/EventBus/Extensions/GenericTypeExtensions.cs:28 | a generic argument is rendered by its raw name, so `List<List<int>>` keeps a '`' |
| GenericTypeNames.MissingBacktickFails | backend/src/EventBus/Extensions/GenericTypeExtensions.cs:34 | a generic type whose name has no '`' cannot be rendered |

## Left out

- The RabbitMQ transport, `IEventBus.PublishAsync` and the dispatch loop that resolves and runs handlers. They sit outside this core. Resolution is modelled only as `HandlersFor`.
- JSON serialisation internals. The serialiser is a parameter (`JsonCodec`), and losslessness is assumed through the `RoundTrips` precondition. The case-insensitive and indented options are not modelled.
- Malformed JSON. `JsonException` raised on content the serialiser cannot read is not modelled. The codec returns `None` instead.
- Reflection. `Assembly.Load(..).GetTypes()` becomes the list of assembly types passed to `NewService`. The entry assembly being null is not modelled.
- Concurrency, `async` scheduling, the `volatile` dispose flag and `Dispose`, which only releases the context.
- EF Core change tracking and `UseTransaction`. The table is read and written as a value inside the transaction. `SaveChangesAsync` failing for reasons other than a duplicate key is not modelled.
- ResilientTransactions.Attempt: `BeginTransactionAsync` and `CommitAsync` are assumed never to fail, and the retry back-off delay is not modelled. `maxRetryCount` and the transient classification (`IsTransient`) stand for the provider's strategy.
- Strings.EndsWith: an ordinal comparison. The source's `EndsWith(string)` is culture-sensitive, which matters only for unusual characters.
- ClrTypes.FullName: covers top-level types only. Nested types (`Outer+Inner`) and the assembly-qualified argument list in a generic type's `FullName` are not modelled.
- The `as IntegrationEvent` cast after deserialising. It is folded into the codec returning `None`.
- `IIntegrationEventHandler.Handle` on a null event. Events are never null in the model.
- Unchecked nulls. `SaveEventAsync(null, transaction)` throws `NullReferenceException` in the row constructor (IntegrationEventLogEntry.cs:20). `GetGenericTypeName` throws it on a null `Type` (GenericTypeExtensions.cs:22) or a null object (GenericTypeExtensions.cs:52). The model's events, types and objects are values that are never null, so these exceptions are not modelled.
- Subscriptions.AddSubscription: the extension methods mutate the builder's service collection and return the same builder object. The model returns a builder value holding the updated collection, so object identity is not stated.

=== FILE: clr_types.dfy ===
/** The slice of `System.Type` the core inspects: names, generic arguments and the base-class chain. */
module ClrTypes {

  import opened Wrappers
  import opened Strings

  /**
   * A runtime type. `name` is `Type.Name` (for generics it carries the arity
   * suffix, as in "List`1"), `namespace` is `Type.Namespace`, `genericArguments`
   * is `Type.GetGenericArguments()` and `baseType` is `Type.BaseType`.
   */
  datatype ClrType = ClrType(
    namespace: string,
    name: string,
    isGenericType: bool,
    genericArguments: seq<ClrType>,
    baseType: Option<ClrType>)

  /** `Type.FullName` of a top-level type: the namespace, a '.', then the simple name. */
  function FullName(t: ClrType): (r: string)
    ensures EndsWith(r, t.name)
    ensures t.namespace == "" ==> r == t.name
    ensures t.namespace != "" ==> |r| == |t.namespace| + 1 + |t.name| && t.namespace <= r && r[|t.namespace|] == '.'
  {
    if t.namespace == "" then t.name else t.namespace + "." + t.name
  }

  /** A type can be cast to `u` when `u` is the type itself or one of its base classes. */
  function IsSubtypeOf(t: ClrType, u: ClrType): (b: bool)
    ensures t == u ==> b
    ensures t.baseType.None? ==> (b <==> t == u)
    ensures t.baseType.Some? && t.baseType.value == u ==> b
  {
    t == u || (t.baseType.Some? && IsSubtypeOf(t.baseType.value, u))
  }

  /** Subtyping is transitive, so casts compose along the base-class chain. */
  lemma {:induction false} SubtypeTransitive(t: ClrType, u: ClrType, v: ClrType)
    requires IsSubtypeOf(t, u) && IsSubtypeOf(u, v)
    ensures IsSubtypeOf(t, v)
  {
    if t != u {
      SubtypeTransitive(t.baseType.value, u, v);
    }
  }

  /** The short name recovered from `FullName` is the simple name, for any dot-free simple name. */
  lemma ShortNameOfFullName(t: ClrType)
    requires '.' !in t.name
    ensures LastSegment(FullName(t), '.') == t.name
  {
    if t.namespace == "" {
      LastSegmentOfPlain(t.name, '.');
    } else {
      LastSegmentAfterSeparator(t.namespace, t.name, '.');
    }
  }
}

=== FILE: event_state.dfy ===
/** `EventStateEnum`: the publication state of an outbox row and its stored integer code. */
module EventStates {

  import opened Wrappers

  /** The four states; no other value exists. */
  datatype EventState = NotPublished | InProgress | Published | PublishedFailed

  /** The integer the enum member is declared with and the database column holds. */
  function Code(s: EventState): (r: int)
    ensures 0 <= r <= 3
    ensures r == 0 <==> s == NotPublished
  {
    match s
    case NotPublished => 0
    case InProgress => 1
    case Published => 2
    case PublishedFailed => 3
  }

  /** Reading a stored code back; codes outside 0..3 name no declared member. */
  function FromCode(c: int): (r: Option<EventState>)
    ensures r.Some? <==> 0 <= c <= 3
    ensures r.Some? ==> Code(r.value) == c
  {
    if c == 0 then Some(NotPublished)
    else if c == 1 then Some(InProgress)
    else if c == 2 then Some(Published)
    else if c == 3 then Some(PublishedFailed)
    else None
  }

  /** Every state reads back from its code, so the encoding loses nothing. */
  lemma CodeRoundTrip(s: EventState)
    ensures FromCode(Code(s)) == Some(s)
  {
  }

  /** Distinct states are stored as distinct codes. */
  lemma CodeInjective(s: EventState, t: EventState)
    requires Code(s) == Code(t)
    ensures s == t
  {
    CodeRoundTrip(s);
    CodeRoundTrip(t);
  }

  /** The declared codes are exactly 0, 1, 2 and 3, in declaration order. */
  lemma DeclaredCodes()
    ensures Code(NotPublished) == 0 && Code(InProgress) == 1
    ensures Code(Published) == 2 && Code(PublishedFailed) == 3
  {
  }
}

=== FILE: generic_type_name.dfy ===
/** `GenericTypeExtensions.GetGenericTypeName`: a readable name for a possibly generic type. */
module GenericTypeNames {

  import opened Wrappers
  import opened Exceptions
  import opened Strings
  import opened ClrTypes

  /** The raw `Name` of each generic argument, in declaration order. */
  function ArgumentNames(args: seq<ClrType>): (r: seq<string>)
    ensures |r| == |args|
    ensures forall i :: 0 <= i < |args| ==> r[i] == args[i].name
  {
    seq(|args|, i requires 0 <= i < |args| => args[i].name)
  }

  /**
   * `type.GetGenericTypeName()`. A non-generic type gives its `Name`. A generic
   * one gives the part of `Name` before the first '`', then the argument names
   * joined by "," inside angle brackets; when `Name` has no '`', `IndexOf`
   * yields -1 and `Remove(-1)` throws `ArgumentOutOfRangeException`.
   */
  function GetGenericTypeName(t: ClrType): (r: Result<string, Error>)
    ensures !t.isGenericType ==> r == Success(t.name)
    ensures t.isGenericType ==> (r.Failure? <==> '`' !in t.name)
    ensures r.Failure? ==> r.error == ArgumentOutOfRange("startIndex")
    ensures t.isGenericType && r.Success? ==>
      exists k :: 0 <= k < |t.name| && t.name[k] == '`' && '`' !in t.name[..k]
        && r.value == t.name[..k] + "<" + Join(ArgumentNames(t.genericArguments), ',') + ">"
  {
    if t.isGenericType then
      var genericTypes := Join(ArgumentNames(t.genericArguments), ',');
      var k := IndexOf(t.name, '`');
      if k == -1 then Failure(ArgumentOutOfRange("startIndex"))
      else Success(t.name[..k] + "<" + genericTypes + ">")
    else
      Success(t.name)
  }

  /** Anything with a runtime type: `obj.GetType()`. */
  datatype ClrObject = ClrObject(runtimeType: ClrType)

  /** `obj.GetGenericTypeName()`: the type overload applied to the object's runtime type. */
  function GetGenericTypeNameOfObject(obj: ClrObject): (r: Result<string, Error>)
    ensures !obj.runtimeType.isGenericType ==> r == Success(obj.runtimeType.name)
    ensures r == GetGenericTypeName(obj.runtimeType)
  {
    GetGenericTypeName(obj.runtimeType)
  }

  /**
   * The rendered name can be taken apart again: for a generic type with at
   * least one argument and no ',' in any argument name, the text between the
   * brackets splits at ',' into exactly the argument names, in order.
   */
  lemma GenericNameParsesBack(t: ClrType)
    requires t.isGenericType && '`' in t.name
    requires |t.genericArguments| >= 1
    requires forall i :: 0 <= i < |t.genericArguments| ==> ',' !in t.genericArguments[i].name
    ensures var s := GetGenericTypeName(t).value;
            var k := IndexOf(t.name, '`');
      && s[..k] == t.name[..k]
      && s[k] == '<' && s[|s| - 1] == '>'
      && Split(s[k + 1..|s| - 1], ',') == ArgumentNames(t.genericArguments)
  {
    var s := GetGenericTypeName(t).value;
    var k := IndexOf(t.name, '`');
    var names := ArgumentNames(t.genericArguments);
    var joined := Join(names, ',');
    assert s == t.name[..k] + "<" + joined + ">";
    assert s[k + 1..|s| - 1] == joined;
    SplitJoin(names, ',');
  }

  /** Type constants for the documented examples. */
  const Int32Type: ClrType := ClrType("System", "Int32", false, [], None)
  const StringType: ClrType := ClrType("System", "String", false, [], None)

  function ListOf(arg: ClrType): ClrType {
    ClrType("System.Collections.Generic", "List`1", true, [arg], None)
  }

  function DictionaryOf(key: ClrType, value: ClrType): ClrType {
    ClrType("System.Collections.Generic", "Dictionary`2", true, [key, value], None)
  }

  /** A generic name is its base name and its arity joined by '`'; only the base name is kept. */
  lemma RenderedWithBase(ns: string, base: string, arity: string, args: seq<ClrType>)
    requires '`' !in base
    ensures GetGenericTypeName(ClrType(ns, base + "`" + arity, true, args, None))
         == Success(base + "<" + Join(ArgumentNames(args), ',') + ">")
  {
    var name := base + "`" + arity;
    IndexOfFirst(name, '`', |base|);
    assert name[..|base|] == base;
  }

  /** The string facts the examples rest on. */
  lemma ExampleSpellings()
    ensures "List" + "`" + "1" == "List`1"
    ensures "Dictionary" + "`" + "2" == "Dictionary`2"
    ensures "List" + "<" + "Int32" + ">" == "List<Int32>"
    ensures "Dictionary" + "<" + ("Int32" + [','] + "String") + ">" == "Dictionary<Int32,String>"
  {
  }

  /** The first documented example: `List<int>` renders as "List<Int32>". */
  lemma ListExample()
    ensures GetGenericTypeName(ListOf(Int32Type)) == Success("List<Int32>")
  {
    ExampleSpellings();
    RenderedWithBase("System.Collections.Generic", "List", "1", [Int32Type]);
    assert ArgumentNames([Int32Type]) == ["Int32"];
  }

  /** The second documented example: `Dictionary<int,string>` renders as "Dictionary<Int32,String>". */
  lemma DictionaryExample()
    ensures GetGenericTypeName(DictionaryOf(Int32Type, StringType)) == Success("Dictionary<Int32,String>")
  {
    ExampleSpellings();
    RenderedWithBase("System.Collections.Generic", "Dictionary", "2", [Int32Type, StringType]);
    var names := ArgumentNames([Int32Type, StringType]);
    assert names == ["Int32", "String"];
    assert names[1..] == ["String"];
  }

  /** A `List<T>` renders with the raw `Name` of its argument between the brackets. */
  lemma ListRendersArgumentName(a: ClrType)
    ensures GetGenericTypeName(ListOf(a)) == Success("List" + "<" + a.name + ">")
  {
    ExampleSpellings();
    RenderedWithBase("System.Collections.Generic", "List", "1", [a]);
    assert ArgumentNames([a]) == [a.name];
    assert Join([a.name], ',') == a.name;
  }

  /** A character of the middle piece occurs in the whole. */
  lemma InMiddle(prefix: string, middle: string, suffix: string, c: char)
    requires c in middle
    ensures c in prefix + middle + suffix
  {
    var k :| 0 <= k < |middle| && middle[k] == c;
    assert (prefix + middle + suffix)[|prefix| + k] == c;
  }

  /**
   * Arguments are rendered by their raw `Name`, so a generic argument keeps its
   * arity suffix: `List<List<int>>` gives "List<List`1>", with a '`' inside.
   */
  lemma NestedArgumentKeepsBacktick(a: ClrType)
    requires '`' in a.name
    ensures GetGenericTypeName(ListOf(a)).Success?
    ensures '`' in GetGenericTypeName(ListOf(a)).value
  {
    ListRendersArgumentName(a);
    InMiddle("List" + "<", a.name, ">", '`');
  }

  /** A generic type whose name lacks the arity marker cannot be rendered. */
  lemma MissingBacktickFails()
    ensures GetGenericTypeName(ClrType("", "Weird", true, [Int32Type], None)) == Failure(ArgumentOutOfRange("startIndex"))
  {
  }
}

=== FILE: handlers.dfy ===
/**
 * `IIntegrationEventHandler<in T>` layered over the untyped
 * `IIntegrationEventHandler`: the untyped `Handle` casts the event to `T` and
 * calls the typed `Handle`.
 */
module Handlers {

  import opened Wrappers
  import opened Exceptions
  import opened ClrTypes
  import opened Events

  /**
   * A handler class: its own type and the `T` of the
   * `IIntegrationEventHandler<T>` it implements. Every such class is also an
   * untyped handler, which is what lets the registry hold handlers of
   * different event types side by side.
   */
  datatype HandlerType = HandlerType(handlerType: ClrType, handledEvent: ClrType)

  /**
   * What the typed `Handle(T)` of each handler class does with an event: the
   * task either completes or faults with an exception. Handler bodies are
   * application code and stay a parameter.
   */
  type TypedHandle = (ClrType, IntegrationEvent) -> Result<(), Error>

  /** Whether the cast `(T)event` succeeds: the event's runtime type is `T` or derives from it. */
  predicate Accepts(h: HandlerType, e: IntegrationEvent) {
    IsSubtypeOf(e.runtimeType, h.handledEvent)
  }

  /**
   * The untyped `Handle(IntegrationEvent)`: on a successful cast the typed
   * `Handle` runs on the very same event; otherwise the cast throws
   * `InvalidCastException` and the typed handler never runs.
   */
  function Handle(h: HandlerType, e: IntegrationEvent, typed: TypedHandle): (r: Result<(), Error>)
    ensures Accepts(h, e) ==> r == typed(h.handlerType, e)
    ensures !Accepts(h, e) ==> r == Failure(InvalidCast)
  {
    if Accepts(h, e) then typed(h.handlerType, e) else Failure(InvalidCast)
  }

  /**
   * Contravariance: a handler for `T` handles any event whose runtime type
   * derives from a subtype `U` of `T`, i.e. it also serves as a handler for `U`.
   */
  lemma HandlerAcceptsSubtypes(h: HandlerType, u: ClrType, e: IntegrationEvent, typed: TypedHandle)
    requires IsSubtypeOf(u, h.handledEvent)
    requires IsSubtypeOf(e.runtimeType, u)
    ensures Handle(h, e, typed) == typed(h.handlerType, e)
  {
    SubtypeTransitive(e.runtimeType, u, h.handledEvent);
  }
}

=== FILE: integration_event.dfy ===
/** The `IntegrationEvent` record every cross-service message derives from. */
module Events {

  import opened Wrappers
  import opened Primitives
  import opened ClrTypes

  /** `System.Object`, the root of every base-class chain. */
  const ObjectType: ClrType := ClrType("System", "Object", false, [], None)

  /** The `IntegrationEvent` record type itself. */
  const IntegrationEventType: ClrType := ClrType("EventBus.Events", "IntegrationEvent", false, [], Some(ObjectType))

  /**
   * An event instance. `id` and `creationDate` are the record's two serialised
   * properties; `runtimeType` is what `GetType()` returns and `payload` stands
   * for the properties a concrete subtype adds. Being a datatype, two events
   * with equal field values are equal, as for a C# record.
   */
  datatype IntegrationEvent = IntegrationEvent(
    id: Guid,
    creationDate: DateTime,
    runtimeType: ClrType,
    payload: seq<string>)

  /** A type is an event type when it is `IntegrationEvent` or derives from it. */
  predicate IsEventType(t: ClrType) {
    IsSubtypeOf(t, IntegrationEventType)
  }

  /** An event value is well-typed when its runtime type derives from `IntegrationEvent`. */
  predicate WellTyped(e: IntegrationEvent) {
    IsEventType(e.runtimeType)
  }

  /**
   * The source of fresh identifiers standing in for `Guid.NewGuid()`: every id
   * it has handed out is below `next`.
   */
  datatype IdSource = IdSource(next: Guid)

  /**
   * `new T()` for an event type `T`: a fresh id and the clock reading `now`
   * (the value `DateTime.UtcNow` would return) as creation date. The id is
   * not below `src.next`, so it differs from every id issued before, and the
   * returned source has moved past it.
   */
  function NewEvent(src: IdSource, now: DateTime, runtimeType: ClrType, payload: seq<string>)
    : (r: (IntegrationEvent, IdSource))
    requires IsEventType(runtimeType)
    ensures WellTyped(r.0)
    ensures src.next <= r.0.id < r.1.next
    ensures r.0.creationDate == now && r.0.runtimeType == runtimeType && r.0.payload == payload
  {
    (IntegrationEvent(src.next, now, runtimeType, payload), IdSource(src.next + 1))
  }

  /** Constructs one event per clock reading, in order, all of the given runtime type. */
  function NewEvents(src: IdSource, clock: seq<DateTime>, runtimeType: ClrType)
    : (r: (seq<IntegrationEvent>, IdSource))
    requires IsEventType(runtimeType)
    ensures |r.0| == |clock|
    ensures src.next <= r.1.next
    ensures forall i :: 0 <= i < |r.0| ==> src.next <= r.0[i].id < r.1.next
    ensures forall i, j :: 0 <= i < j < |r.0| ==> r.0[i].id != r.0[j].id
    ensures forall i :: 0 <= i < |r.0| ==> r.0[i].creationDate == clock[i]
    decreases |clock|
  {
    if |clock| == 0 then ([], src)
    else
      var (e, src') := NewEvent(src, clock[0], runtimeType, []);
      var (rest, src'') := NewEvents(src', clock[1..], runtimeType);
      ([e] + rest, src'')
  }
}

=== FILE: log_entry.dfy ===
/** `IntegrationEventLogEntry`: one row of the outbox table. */
module LogEntries {

  import opened Wrappers
  import opened Primitives
  import opened Exceptions
  import opened Strings
  import opened ClrTypes
  import opened Events
  import opened EventStates

  /**
   * The JSON serialiser, left uninterpreted: `serialize(e, t)` writes `e` as an
   * instance of `t` (indented), and `deserialize(json, t)` reads an instance of
   * `t` (property names matched case-insensitively), yielding `None` when the
   * result is not an `IntegrationEvent`.
   */
  datatype JsonCodec = JsonCodec(
    serialize: (IntegrationEvent, ClrType) -> string,
    deserialize: (string, ClrType) -> Option<IntegrationEvent>)

  /**
   * The serialiser pair loses nothing: reading back, with an event's own runtime
   * type, what was written with that type yields the same event. Both `Id` and
   * `CreationDate` carry `[JsonInclude]`, so they take part in the round trip.
   */
  ghost predicate RoundTrips(codec: JsonCodec) {
    forall e: IntegrationEvent {:trigger codec.serialize(e, e.runtimeType)} ::
      WellTyped(e) ==> codec.deserialize(codec.serialize(e, e.runtimeType), e.runtimeType) == Some(e)
  }

  /**
   * A row. `integrationEvent` is the unmapped property that
   * `DeserializeJsonContent` fills in; it is `None` (null) in a row read from
   * the table.
   */
  datatype LogEntry = LogEntry(
    eventId: Guid,
    eventTypeName: string,
    content: string,
    state: EventState,
    timesSent: Int32,
    creationTime: DateTime,
    transactionId: Guid,
    integrationEvent: Option<IntegrationEvent>)

  /** The public constructor: the row recording event `e` written by transaction `transactionId`. */
  function NewEntry(e: IntegrationEvent, transactionId: Guid, codec: JsonCodec): (r: LogEntry)
    ensures r.eventId == e.id && r.creationTime == e.creationDate
    ensures r.eventTypeName == FullName(e.runtimeType)
    ensures r.content == codec.serialize(e, e.runtimeType)
    ensures r.state == NotPublished && Code(r.state) == 0 && r.timesSent == 0
    ensures r.transactionId == transactionId
    ensures r.integrationEvent == None
  {
    LogEntry(
      e.id,
      FullName(e.runtimeType),
      codec.serialize(e, e.runtimeType),
      NotPublished,
      0,
      e.creationDate,
      transactionId,
      None)
  }

  /** `EventTypeShortName`: the type name without its namespace, i.e. after the last '.'. */
  function ShortName(entry: LogEntry): (r: string)
    ensures '.' !in r
    ensures EndsWith(entry.eventTypeName, r)
    ensures r == entry.eventTypeName || entry.eventTypeName[|entry.eventTypeName| - |r| - 1] == '.'
  {
    LastSegment(entry.eventTypeName, '.')
  }

  /**
   * `DeserializeJsonContent(type)`: reads `content` as an instance of `type` and
   * stores the result in `integrationEvent`. A null `type` makes
   * `JsonSerializer.Deserialize` throw `ArgumentNullException`.
   */
  function DeserializeJsonContent(entry: LogEntry, t: Option<ClrType>, codec: JsonCodec): (r: Result<LogEntry, Error>)
    ensures r.Success? <==> t.Some?
    ensures r.Failure? ==> r.error == ArgumentNull("returnType")
    ensures r.Success? ==> r.value.(integrationEvent := entry.integrationEvent) == entry
    ensures r.Success? ==> r.value.integrationEvent == codec.deserialize(entry.content, t.value)
  {
    match t
    case None => Failure(ArgumentNull("returnType"))
    case Some(ty) => Success(entry.(integrationEvent := codec.deserialize(entry.content, ty)))
  }

  /** The short name stored for an event is its runtime type's simple name. */
  lemma NewEntryShortName(e: IntegrationEvent, transactionId: Guid, codec: JsonCodec)
    requires '.' !in e.runtimeType.name
    ensures ShortName(NewEntry(e, transactionId, codec)) == e.runtimeType.name
  {
    ShortNameOfFullName(e.runtimeType);
  }

  /**
   * Writing a row and deserialising its content with the event's own type
   * gives back the original event, and changes nothing else in the row.
   */
  lemma NewEntryRoundTrip(e: IntegrationEvent, transactionId: Guid, codec: JsonCodec)
    requires RoundTrips(codec)
    requires WellTyped(e)
    ensures DeserializeJsonContent(NewEntry(e, transactionId, codec), Some(e.runtimeType), codec)
         == Success(NewEntry(e, transactionId, codec).(integrationEvent := Some(e)))
  {
    assert codec.deserialize(codec.serialize(e, e.runtimeType), e.runtimeType) == Some(e);
  }
}

=== FILE: log_service.dfy ===
/**
 * `IntegrationEventLogService`: saving, reading back and updating outbox rows.
 * The `DbContext` is replaced by the table contents it sees, an `EventLog`.
 */
module EventLogService {

  import opened Wrappers
  import opened Primitives
  import opened Exceptions
  import opened Strings
  import opened ClrTypes
  import opened Events
  import opened EventStates
  import opened LogEntries
  import opened Ordering
  import opened Transactions

  /** The `IntegrationEventLog` table, rows in the order a scan returns them. */
  datatype EventLog = EventLog(rows: seq<LogEntry>)

  /** The primary-key column, row by row. */
  function EventIds(rows: seq<LogEntry>): (r: seq<Guid>)
    ensures |r| == |rows|
    ensures forall i :: 0 <= i < |rows| ==> r[i] == rows[i].eventId
  {
    seq(|rows|, i requires 0 <= i < |rows| => rows[i].eventId)
  }

  /** `EventId` is the table key: no two rows share it. */
  ghost predicate KeysUnique(log: EventLog) {
    forall i, j :: 0 <= i < j < |log.rows| ==> log.rows[i].eventId != log.rows[j].eventId
  }

  /** Whether some row has key `id`. */
  predicate HasEvent(log: EventLog, id: Guid) {
    id in EventIds(log.rows)
  }

  // ---------------------------------------------------------------------------
  // Known event types
  // ---------------------------------------------------------------------------

  /** `nameof(IntegrationEvent)`, the suffix a type name needs to be loaded as an event type. */
  const EventTypeSuffix: string := "IntegrationEvent"

  /** The service keeps only the event types it can deserialise into. */
  datatype Service = Service(eventTypes: seq<ClrType>)

  /** The types of the entry assembly whose simple name ends in "IntegrationEvent", in assembly order. */
  function KnownEventTypes(assemblyTypes: seq<ClrType>): (r: seq<ClrType>)
    ensures forall t :: t in r <==> t in assemblyTypes && EndsWith(t.name, EventTypeSuffix)
    ensures |r| <= |assemblyTypes|
  {
    if |assemblyTypes| == 0 then []
    else
      var t := assemblyTypes[0];
      var rest := KnownEventTypes(assemblyTypes[1..]);
      assert assemblyTypes == [t] + assemblyTypes[1..];
      if EndsWith(t.name, EventTypeSuffix) then [t] + rest else rest
  }

  /** The constructor: the event-type list is `assemblyTypes` filtered by name. */
  function NewService(assemblyTypes: seq<ClrType>): (r: Service)
    ensures forall t :: t in r.eventTypes ==> EndsWith(t.name, EventTypeSuffix)
    ensures forall t :: t in assemblyTypes && EndsWith(t.name, EventTypeSuffix) ==> t in r.eventTypes
  {
    Service(KnownEventTypes(assemblyTypes))
  }

  /** `types.FirstOrDefault(t => t.Name == name)`; `None` stands for the null default. */
  function FirstWithName(types: seq<ClrType>, name: string): (r: Option<ClrType>)
    ensures r.None? <==> forall i :: 0 <= i < |types| ==> types[i].name != name
    ensures r.Some? ==> exists i :: 0 <= i < |types| && types[i] == r.value && r.value.name == name
                                   && forall j :: 0 <= j < i ==> types[j].name != name
  {
    if |types| == 0 then None
    else if types[0].name == name then Some(types[0])
    else
      var r := FirstWithName(types[1..], name);
      if r.Some? then
        var i :| 0 <= i < |types[1..]| && types[1..][i] == r.value && r.value.name == name
                 && forall j :: 0 <= j < i ==> types[1..][j].name != name;
        assert types[i + 1] == r.value;
        r
      else r
  }

  /**
   * Looking a name up among the known event types finds the same type as
   * looking it up among all assembly types when the name carries the suffix,
   * and finds nothing otherwise.
   */
  lemma {:induction false} KnownTypeLookup(assemblyTypes: seq<ClrType>, name: string)
    ensures EndsWith(name, EventTypeSuffix) ==>
      FirstWithName(KnownEventTypes(assemblyTypes), name) == FirstWithName(assemblyTypes, name)
    ensures !EndsWith(name, EventTypeSuffix) ==> FirstWithName(KnownEventTypes(assemblyTypes), name) == None
    decreases |assemblyTypes|
  {
    if |assemblyTypes| > 0 {
      KnownTypeLookup(assemblyTypes[1..], name);
      var t := assemblyTypes[0];
      var rest := KnownEventTypes(assemblyTypes[1..]);
      if EndsWith(t.name, EventTypeSuffix) {
        assert KnownEventTypes(assemblyTypes) == [t] + rest;
        assert ([t] + rest)[1..] == rest;
      }
    }
  }

  // ---------------------------------------------------------------------------
  // RetrieveEventLogsPendingToPublishAsync
  // ---------------------------------------------------------------------------

  /**
   * The `Where` clause: the row belongs to `transactionId` and is not yet
   * published, which is the state stored as 0.
   */
  function IsPending(e: LogEntry, transactionId: Guid): (b: bool)
    ensures b <==> e.transactionId == transactionId && Code(e.state) == 0
  {
    e.transactionId == transactionId && e.state == NotPublished
  }

  /** The query result before ordering: the pending rows of the transaction, in scan order. */
  function Query(rows: seq<LogEntry>, transactionId: Guid): (r: seq<LogEntry>)
    ensures forall e :: e in r <==> e in rows && IsPending(e, transactionId)
    ensures forall e :: multiset(r)[e] == if IsPending(e, transactionId) then multiset(rows)[e] else 0
    decreases |rows|
  {
    if |rows| == 0 then []
    else
      var init := rows[..|rows| - 1];
      var last := rows[|rows| - 1];
      assert rows == init + [last];
      Query(init, transactionId) + (if IsPending(last, transactionId) then [last] else [])
  }

  /** The ordering key of `OrderBy(o => o.CreationTime)`. */
  function CreationKey(e: LogEntry): int {
    e.creationTime
  }

  /**
   * The rows the retrieval yields, in the order it yields them: the pending rows
   * of the transaction, by creation time, rows with equal creation time in scan
   * order.
   */
  function PendingInOrder(log: EventLog, transactionId: Guid): (r: seq<LogEntry>)
    ensures forall e :: multiset(r)[e] == if IsPending(e, transactionId) then multiset(log.rows)[e] else 0
    ensures forall i :: 0 <= i < |r| ==> IsPending(r[i], transactionId)
    ensures SortedBy(r, CreationKey)
    ensures forall k :: WithKey(r, CreationKey, k) == WithKey(Query(log.rows, transactionId), CreationKey, k)
  {
    var q := Query(log.rows, transactionId);
    var r := SortBy(q, CreationKey);
    assert multiset(r) == multiset(q);
    assert forall i :: 0 <= i < |r| ==> IsPending(r[i], transactionId) by {
      forall i | 0 <= i < |r|
        ensures IsPending(r[i], transactionId)
      {
        assert r[i] in multiset(r);
        assert r[i] in q;
      }
    }
    r
  }

  /**
   * `RetrieveEventLogsPendingToPublishAsync(transactionId)`. Each element is
   * what enumerating the returned sequence produces: the row with its event
   * deserialised under the first known type named like its short name, or the
   * `ArgumentNullException` that deserialising under a null type raises.
   */
  function RetrievePending(svc: Service, log: EventLog, transactionId: Guid, codec: JsonCodec)
    : (r: seq<Result<LogEntry, Error>>)
    ensures |r| == |PendingInOrder(log, transactionId)|
    ensures forall i :: 0 <= i < |r| ==>
      var p := PendingInOrder(log, transactionId)[i];
      var t := FirstWithName(svc.eventTypes, ShortName(p));
      && (r[i].Failure? <==> t.None?)
      && (r[i].Failure? ==> r[i].error == ArgumentNull("returnType"))
      && (r[i].Success? ==> r[i].value.(integrationEvent := p.integrationEvent) == p)
      && (r[i].Success? ==> r[i].value.integrationEvent == codec.deserialize(p.content, t.value))
      && (r[i].Success? ==> t.value in svc.eventTypes && t.value.name == ShortName(p))
  {
    var result := Query(log.rows, transactionId);
    if |result| != 0 then
      var ordered := PendingInOrder(log, transactionId);
      seq(|ordered|, i requires 0 <= i < |ordered| =>
        DeserializeJsonContent(ordered[i], FirstWithName(svc.eventTypes, ShortName(ordered[i])), codec))
    else
      []
  }

  /**
   * What a `foreach` over a lazily projected sequence sees: the values produced
   * before the first element whose projection throws, and that exception.
   */
  datatype Enumeration<T> = Enumeration(yielded: seq<T>, thrown: Option<Error>)

  /**
   * Enumerating a deferred `Select`: each element is computed when the consumer
   * reaches it, so the first failure ends the loop and the later elements are
   * never produced.
   */
  function Enumerate<T>(rs: seq<Result<T, Error>>): (r: Enumeration<T>)
    ensures |r.yielded| <= |rs|
    ensures forall i :: 0 <= i < |r.yielded| ==> rs[i] == Success(r.yielded[i])
    ensures r.thrown.None? <==> forall i :: 0 <= i < |rs| ==> rs[i].Success?
    ensures r.thrown.None? ==> |r.yielded| == |rs|
    ensures r.thrown.Some? ==> |r.yielded| < |rs| && rs[|r.yielded|] == Failure(r.thrown.value)
    decreases |rs|
  {
    if |rs| == 0 then Enumeration([], None)
    else
      match rs[0]
      case Failure(err) => Enumeration([], Some(err))
      case Success(v) =>
        var rest := Enumerate(rs[1..]);
        Enumeration([v] + rest.yielded, rest.thrown)
  }

  /**
   * A publisher looping over the pending events gets through the whole batch
   * exactly when every pending row resolves to a known type; otherwise it stops
   * with `ArgumentNullException` at the first row that does not.
   */
  lemma EnumeratePending(svc: Service, log: EventLog, transactionId: Guid, codec: JsonCodec)
    ensures var ps := PendingInOrder(log, transactionId);
            var en := Enumerate(RetrievePending(svc, log, transactionId, codec));
      && (en.thrown.None? <==> forall i :: 0 <= i < |ps| ==> FirstWithName(svc.eventTypes, ShortName(ps[i])).Some?)
      && (en.thrown.Some? ==>
            && en.thrown.value == ArgumentNull("returnType")
            && FirstWithName(svc.eventTypes, ShortName(ps[|en.yielded|])).None?)
  {
    var ps := PendingInOrder(log, transactionId);
    var rs := RetrievePending(svc, log, transactionId, codec);
    forall i | 0 <= i < |ps|
      ensures rs[i].Success? <==> FirstWithName(svc.eventTypes, ShortName(ps[i])).Some?
      ensures rs[i].Failure? ==> rs[i].error == ArgumentNull("returnType")
    {
      RetrievedElement(svc, log, transactionId, codec, i);
    }
  }

  /**
   * The rows a publisher is handed before any failure are the first pending
   * rows in creation order, each with its event deserialised.
   */
  lemma EnumeratedInOrder(svc: Service, log: EventLog, transactionId: Guid, codec: JsonCodec)
    ensures var ps := PendingInOrder(log, transactionId);
            var en := Enumerate(RetrievePending(svc, log, transactionId, codec));
      forall i :: 0 <= i < |en.yielded| ==> en.yielded[i].(integrationEvent := ps[i].integrationEvent) == ps[i]
  {
    var ps := PendingInOrder(log, transactionId);
    var rs := RetrievePending(svc, log, transactionId, codec);
    var en := Enumerate(rs);
    forall i | 0 <= i < |en.yielded|
      ensures en.yielded[i].(integrationEvent := ps[i].integrationEvent) == ps[i]
    {
      assert rs[i] == Success(en.yielded[i]);
      RetrievedElement(svc, log, transactionId, codec, i);
    }
  }

  /** The `i`-th element retrieved, as the enumeration sees it. */
  lemma RetrievedElement(svc: Service, log: EventLog, transactionId: Guid, codec: JsonCodec, i: nat)
    requires i < |PendingInOrder(log, transactionId)|
    ensures var p := PendingInOrder(log, transactionId)[i];
            var x := RetrievePending(svc, log, transactionId, codec)[i];
      && (x.Success? <==> FirstWithName(svc.eventTypes, ShortName(p)).Some?)
      && (x.Success? ==> x.value.(integrationEvent := p.integrationEvent) == p)
      && (x.Failure? ==> x.error == ArgumentNull("returnType"))
  {
  }

  /** Nothing is retrieved exactly when no row of the transaction is still unpublished. */
  lemma RetrieveEmpty(svc: Service, log: EventLog, transactionId: Guid, codec: JsonCodec)
    ensures |RetrievePending(svc, log, transactionId, codec)| == 0
        <==> forall i :: 0 <= i < |log.rows| ==> !IsPending(log.rows[i], transactionId)
  {
    var p := PendingInOrder(log, transactionId);
    assert |RetrievePending(svc, log, transactionId, codec)| == |p|;
    if |p| > 0 {
      var e := p[0];
      assert e in multiset(p);
      assert IsPending(e, transactionId) && multiset(log.rows)[e] > 0;
      assert e in log.rows;
    } else {
      forall i | 0 <= i < |log.rows|
        ensures !IsPending(log.rows[i], transactionId)
      {
        var e := log.rows[i];
        assert e in multiset(log.rows);
        assert multiset(p)[e] == 0;
      }
    }
  }

  /**
   * A row whose short name does not end in "IntegrationEvent" never resolves
   * to a type, for a service built from any assembly, so enumerating it fails.
   */
  lemma UnsuffixedNeverResolves(assemblyTypes: seq<ClrType>, log: EventLog, transactionId: Guid, codec: JsonCodec, i: nat)
    requires i < |PendingInOrder(log, transactionId)|
    requires !EndsWith(ShortName(PendingInOrder(log, transactionId)[i]), EventTypeSuffix)
    ensures RetrievePending(NewService(assemblyTypes), log, transactionId, codec)[i] == Failure(ArgumentNull("returnType"))
  {
    KnownTypeLookup(assemblyTypes, ShortName(PendingInOrder(log, transactionId)[i]));
  }

  // ---------------------------------------------------------------------------
  // SaveEventAsync
  // ---------------------------------------------------------------------------

  /**
   * `SaveEventAsync(event, transaction)`: adds the event's row, stamped with the
   * transaction's id, inside that transaction. A null transaction is rejected
   * before anything is written; a key already in the table is rejected by the
   * store.
   */
  function SaveEvent(log: EventLog, e: IntegrationEvent, transaction: Option<Transaction>, codec: JsonCodec)
    : (r: Result<EventLog, Error>)
    ensures transaction.None? ==> r == Failure(ArgumentNull("transaction"))
    ensures transaction.Some? && HasEvent(log, e.id) ==> r == Failure(DuplicateKey(e.id))
    ensures r.Success? <==> transaction.Some? && !HasEvent(log, e.id)
    ensures r.Success? ==>
      && |r.value.rows| == |log.rows| + 1
      && r.value.rows[..|log.rows|] == log.rows
      && r.value.rows[|log.rows|] == NewEntry(e, transaction.value.transactionId, codec)
    ensures r.Success? && KeysUnique(log) ==> KeysUnique(r.value)
  {
    match transaction
    case None => Failure(ArgumentNull("transaction"))
    case Some(tx) =>
      if HasEvent(log, e.id) then Failure(DuplicateKey(e.id))
      else
        var rows := log.rows + [NewEntry(e, tx.transactionId, codec)];
        assert rows[..|log.rows|] == log.rows;
        assert forall i :: 0 <= i < |log.rows| ==> log.rows[i].eventId != e.id by {
          forall i | 0 <= i < |log.rows| ensures log.rows[i].eventId != e.id {
            assert EventIds(log.rows)[i] == log.rows[i].eventId;
          }
        }
        Success(EventLog(rows))
  }

  /**
   * A saved event is in the table exactly once afterwards, unpublished, never
   * sent, and tagged with the saving transaction.
   */
  lemma SavedOnce(log: EventLog, e: IntegrationEvent, tx: Transaction, codec: JsonCodec)
    requires SaveEvent(log, e, Some(tx), codec).Success?
    ensures var after := SaveEvent(log, e, Some(tx), codec).value;
      && multiset(EventIds(after.rows))[e.id] == 1
      && forall i :: 0 <= i < |after.rows| && after.rows[i].eventId == e.id ==>
           after.rows[i].state == NotPublished && after.rows[i].timesSent == 0
           && after.rows[i].transactionId == tx.transactionId
  {
    var after := SaveEvent(log, e, Some(tx), codec).value;
    var entry := NewEntry(e, tx.transactionId, codec);
    assert after.rows == log.rows + [entry];
    assert EventIds(after.rows) == EventIds(log.rows) + [e.id];
    assert forall i :: 0 <= i < |log.rows| ==> log.rows[i].eventId != e.id by {
      forall i | 0 <= i < |log.rows| ensures log.rows[i].eventId != e.id {
        assert EventIds(log.rows)[i] == log.rows[i].eventId;
      }
    }
  }

  // ---------------------------------------------------------------------------
  // UpdateEventStatus and the MarkEventAs* operations
  // ---------------------------------------------------------------------------

  /** The row after `State = status` and, for `InProgress` only, `TimesSent++`. */
  function WithStatus(entry: LogEntry, status: EventState): (r: LogEntry)
    ensures r.state == status
    ensures status == InProgress ==> r.timesSent == Increment(entry.timesSent)
    ensures status != InProgress ==> r.timesSent == entry.timesSent
    ensures r.(state := entry.state, timesSent := entry.timesSent) == entry
  {
    entry.(
      state := status,
      timesSent := if status == InProgress then Increment(entry.timesSent) else entry.timesSent)
  }

  /** Two positions holding the same value make it occur at least twice. */
  lemma TwoOccurrences<T>(s: seq<T>, i: nat, j: nat)
    requires i < j < |s| && s[i] == s[j]
    ensures multiset(s)[s[i]] >= 2
  {
    assert s == s[..i] + [s[i]] + s[i + 1..j] + [s[j]] + s[j + 1..];
  }

  /**
   * `UpdateEventStatus(eventId, status)`: `Single` demands exactly one row with
   * the key, and throws `InvalidOperationException` otherwise; that row gets
   * the new state, any state being allowed from any state.
   */
  function UpdateEventStatus(log: EventLog, eventId: Guid, status: EventState): (r: Result<EventLog, Error>)
    ensures r.Success? <==> multiset(EventIds(log.rows))[eventId] == 1
    ensures r.Failure? ==> r.error == if eventId in EventIds(log.rows) then MoreThanOneElement else NoElements
    ensures r.Success? ==>
      && |r.value.rows| == |log.rows|
      && EventIds(r.value.rows) == EventIds(log.rows)
      && forall i :: 0 <= i < |log.rows| ==>
           r.value.rows[i] == if log.rows[i].eventId == eventId then WithStatus(log.rows[i], status) else log.rows[i]
  {
    var ids := EventIds(log.rows);
    var n := multiset(ids)[eventId];
    if n == 0 then Failure(NoElements)
    else if n > 1 then Failure(MoreThanOneElement)
    else
      var i := IndexOf(ids, eventId);
      var rows := log.rows[i := WithStatus(log.rows[i], status)];
      assert forall j :: 0 <= j < |log.rows| && j != i ==> log.rows[j].eventId != eventId by {
        forall j | 0 <= j < |log.rows| && j != i
          ensures log.rows[j].eventId != eventId
        {
          if log.rows[j].eventId == eventId {
            if i < j { TwoOccurrences(ids, i, j); } else { TwoOccurrences(ids, j, i); }
          }
        }
      }
      assert EventIds(rows) == ids;
      Success(EventLog(rows))
  }

  /** `MarkEventAsPublishedAsync`: the success state, the send count untouched. */
  function MarkEventAsPublished(log: EventLog, eventId: Guid): (r: Result<EventLog, Error>)
    ensures r.Success? ==> |r.value.rows| == |log.rows|
    ensures r.Success? ==> forall i :: 0 <= i < |r.value.rows| && r.value.rows[i].eventId == eventId ==>
      r.value.rows[i].state == Published && r.value.rows[i].timesSent == log.rows[i].timesSent
  {
    UpdateEventStatus(log, eventId, Published)
  }

  /** `MarkEventAsInProgressAsync`: the in-flight state, and one more send counted. */
  function MarkEventAsInProgress(log: EventLog, eventId: Guid): (r: Result<EventLog, Error>)
    ensures r.Success? ==> |r.value.rows| == |log.rows|
    ensures r.Success? ==> forall i :: 0 <= i < |r.value.rows| && r.value.rows[i].eventId == eventId ==>
      && r.value.rows[i].state == InProgress
      && r.value.rows[i].timesSent == Increment(log.rows[i].timesSent)
  {
    UpdateEventStatus(log, eventId, InProgress)
  }

  /** `MarkEventAsFailedAsync`: the failure state, the send count untouched. */
  function MarkEventAsFailed(log: EventLog, eventId: Guid): (r: Result<EventLog, Error>)
    ensures r.Success? ==> |r.value.rows| == |log.rows|
    ensures r.Success? ==> forall i :: 0 <= i < |r.value.rows| && r.value.rows[i].eventId == eventId ==>
      r.value.rows[i].state == PublishedFailed && r.value.rows[i].timesSent == log.rows[i].timesSent
  {
    UpdateEventStatus(log, eventId, PublishedFailed)
  }

  /** A status update that succeeded once succeeds again on its own result. */
  lemma UpdateRepeatable(log: EventLog, eventId: Guid, s: EventState, t: EventState)
    requires UpdateEventStatus(log, eventId, s).Success?
    ensures UpdateEventStatus(UpdateEventStatus(log, eventId, s).value, eventId, t).Success?
  {
  }

  /** Setting a state other than `InProgress` twice gives the same table as setting it once. */
  lemma {:induction false} UpdateIdempotent(log: EventLog, eventId: Guid, status: EventState)
    requires status != InProgress
    requires UpdateEventStatus(log, eventId, status).Success?
    ensures UpdateEventStatus(UpdateEventStatus(log, eventId, status).value, eventId, status)
         == UpdateEventStatus(log, eventId, status)
  {
    var once := UpdateEventStatus(log, eventId, status).value;
    var twice := UpdateEventStatus(once, eventId, status).value;
    assert twice.rows == once.rows by {
      forall i | 0 <= i < |once.rows|
        ensures twice.rows[i] == once.rows[i]
      {
        if log.rows[i].eventId == eventId {
          assert once.rows[i] == WithStatus(log.rows[i], status);
        }
      }
    }
  }

  /** Marking as published twice is the same as marking once; so is marking as failed. */
  lemma MarkPublishedOrFailedIdempotent(log: EventLog, eventId: Guid)
    ensures MarkEventAsPublished(log, eventId).Success? ==>
      MarkEventAsPublished(MarkEventAsPublished(log, eventId).value, eventId) == MarkEventAsPublished(log, eventId)
    ensures MarkEventAsFailed(log, eventId).Success? ==>
      MarkEventAsFailed(MarkEventAsFailed(log, eventId).value, eventId) == MarkEventAsFailed(log, eventId)
  {
    if MarkEventAsPublished(log, eventId).Success? {
      UpdateIdempotent(log, eventId, Published);
    }
    if MarkEventAsFailed(log, eventId).Success? {
      UpdateIdempotent(log, eventId, PublishedFailed);
    }
  }

  /**
   * Marking in progress twice counts two sends: the count goes up by two,
   * modulo 2^32 as the unchecked `int` wraps, and exactly by two below the top.
   */
  lemma MarkInProgressTwiceCountsTwice(log: EventLog, eventId: Guid, i: nat)
    requires MarkEventAsInProgress(log, eventId).Success?
    requires i < |log.rows| && log.rows[i].eventId == eventId
    ensures var twice := MarkEventAsInProgress(MarkEventAsInProgress(log, eventId).value, eventId);
      && twice.Success?
      && twice.value.rows[i].timesSent == Increment(Increment(log.rows[i].timesSent))
      && (twice.value.rows[i].timesSent as int - log.rows[i].timesSent as int - 2) % 0x1_0000_0000 == 0
      && (log.rows[i].timesSent as int + 1 < Int32Max ==> twice.value.rows[i].timesSent as int == log.rows[i].timesSent as int + 2)
  {
    UpdateRepeatable(log, eventId, InProgress, InProgress);
  }

  /**
   * No transition is refused: any row found by its key can be put back into
   * any state, `NotPublished` included, whatever state it is in.
   */
  lemma AnyTransitionAllowed(log: EventLog, eventId: Guid, i: nat, status: EventState)
    requires KeysUnique(log)
    requires i < |log.rows| && log.rows[i].eventId == eventId
    ensures UpdateEventStatus(log, eventId, status).Success?
    ensures UpdateEventStatus(log, eventId, status).value.rows[i].state == status
  {
    var ids := EventIds(log.rows);
    assert ids == ids[..i] + [eventId] + ids[i + 1..];
  }

  /** Once marked in progress, a row is no longer among those pending for its transaction. */
  lemma InProgressNoLongerPending(log: EventLog, eventId: Guid, transactionId: Guid)
    requires MarkEventAsInProgress(log, eventId).Success?
    ensures forall e :: e in PendingInOrder(MarkEventAsInProgress(log, eventId).value, transactionId) ==> e.eventId != eventId
  {
    var after := MarkEventAsInProgress(log, eventId).value;
    forall e | e in PendingInOrder(after, transactionId)
      ensures e.eventId != eventId
    {
      assert e in multiset(PendingInOrder(after, transactionId));
      assert IsPending(e, transactionId) && e in multiset(after.rows);
      var i :| 0 <= i < |after.rows| && after.rows[i] == e;
    }
  }
}

=== FILE: ordering.dfy ===
/** `Enumerable.OrderBy` on an integer key: a stable ascending sort. */
module Ordering {

  /** Ascending by `key`. */
  ghost predicate SortedBy<T>(s: seq<T>, key: T -> int) {
    forall i, j :: 0 <= i < j < |s| ==> key(s[i]) <= key(s[j])
  }

  /** No element of `s` has a key above `m`. */
  ghost predicate KeysAtMost<T>(s: seq<T>, key: T -> int, m: int) {
    forall i :: 0 <= i < |s| ==> key(s[i]) <= m
  }

  /** The elements of `s` whose key is `k`, in their order in `s`. */
  function WithKey<T>(s: seq<T>, key: T -> int, k: int): seq<T>
  {
    if |s| == 0 then []
    else WithKey(s[..|s| - 1], key, k) + (if key(s[|s| - 1]) == k then [s[|s| - 1]] else [])
  }

  /** Places `x` after every element of `s` whose key is not larger than its own. */
  function Insert<T>(x: T, s: seq<T>, key: T -> int): (r: seq<T>)
    ensures |r| == |s| + 1
    decreases |s|
  {
    if |s| == 0 || key(s[|s| - 1]) <= key(x) then
      s + [x]
    else
      Insert(x, s[..|s| - 1], key) + [s[|s| - 1]]
  }

  /**
   * Inserting splices `x` in at one position: everything before it is an
   * unchanged prefix of `s` and everything after it the rest of `s`.
   */
  lemma {:induction false} InsertSplices<T>(x: T, s: seq<T>, key: T -> int)
    ensures exists i :: 0 <= i <= |s| && Insert(x, s, key) == s[..i] + [x] + s[i..]
    decreases |s|
  {
    if |s| == 0 || key(s[|s| - 1]) <= key(x) {
      assert Insert(x, s, key) == s[..|s|] + [x] + s[|s|..];
    } else {
      var init := s[..|s| - 1];
      InsertSplices(x, init, key);
      var i :| 0 <= i <= |init| && Insert(x, init, key) == init[..i] + [x] + init[i..];
      assert init[..i] == s[..i];
      assert init[i..] + [s[|s| - 1]] == s[i..];
      assert Insert(x, s, key) == s[..i] + [x] + s[i..];
    }
  }

  /** Inserting adds exactly the one element: the result is a permutation of `s` plus `x`. */
  lemma {:induction false} InsertPermutes<T>(x: T, s: seq<T>, key: T -> int)
    ensures multiset(Insert(x, s, key)) == multiset(s) + multiset{x}
    decreases |s|
  {
    if |s| == 0 || key(s[|s| - 1]) <= key(x) {
    } else {
      assert s == s[..|s| - 1] + [s[|s| - 1]];
      InsertPermutes(x, s[..|s| - 1], key);
    }
  }

  /** Inserting an element no larger than a bound keeps every key within the bound. */
  lemma {:induction false} InsertKeysAtMost<T>(x: T, s: seq<T>, key: T -> int, m: int)
    requires KeysAtMost(s, key, m) && key(x) <= m
    ensures KeysAtMost(Insert(x, s, key), key, m)
    decreases |s|
  {
    if |s| == 0 || key(s[|s| - 1]) <= key(x) {
    } else {
      InsertKeysAtMost(x, s[..|s| - 1], key, m);
    }
  }

  /** Inserting into an ascending sequence keeps it ascending. */
  lemma {:induction false} InsertSorted<T>(x: T, s: seq<T>, key: T -> int)
    requires SortedBy(s, key)
    ensures SortedBy(Insert(x, s, key), key)
    decreases |s|
  {
    if |s| == 0 || key(s[|s| - 1]) <= key(x) {
    } else {
      var last := s[|s| - 1];
      var init := s[..|s| - 1];
      InsertSorted(x, init, key);
      InsertKeysAtMost(x, init, key, key(last));
    }
  }

  /** Selecting one key distributes over concatenation. */
  lemma {:induction false} WithKeyAppend<T>(a: seq<T>, b: seq<T>, key: T -> int, k: int)
    ensures WithKey(a + b, key, k) == WithKey(a, key, k) + WithKey(b, key, k)
    decreases |b|
  {
    if |b| == 0 {
      assert a + b == a;
    } else {
      assert (a + b)[..|a + b| - 1] == a + b[..|b| - 1];
      WithKeyAppend(a, b[..|b| - 1], key, k);
    }
  }

  /**
   * Insertion is stable: among the elements carrying `x`'s key, `x` comes
   * last, and the elements carrying any other key are not reordered.
   */
  lemma {:induction false} InsertWithKey<T>(x: T, s: seq<T>, key: T -> int, k: int)
    ensures WithKey(Insert(x, s, key), key, k) == WithKey(s, key, k) + (if key(x) == k then [x] else [])
    decreases |s|
  {
    if |s| == 0 || key(s[|s| - 1]) <= key(x) {
      WithKeyAppend(s, [x], key, k);
      assert [x][..0] == [];
    } else {
      var last := s[|s| - 1];
      var init := s[..|s| - 1];
      InsertWithKey(x, init, key, k);
      assert Insert(x, s, key) == Insert(x, init, key) + [last];
      assert s == init + [last];
      PassLarger(x, last, init, Insert(x, init, key), key, k);
    }
  }

  /**
   * The step of insertion that moves `x` in front of a larger `last`: if `x`'s
   * key selects the same from `r` as from `init` followed by `x`, then it also
   * selects the same from `r` followed by `last` as from `init`, `last`, `x`.
   */
  lemma PassLarger<T>(x: T, last: T, init: seq<T>, r: seq<T>, key: T -> int, k: int)
    requires key(x) < key(last)
    requires WithKey(r, key, k) == WithKey(init, key, k) + (if key(x) == k then [x] else [])
    ensures WithKey(r + [last], key, k) == WithKey(init + [last], key, k) + (if key(x) == k then [x] else [])
  {
    WithKeySnoc(r, last, key, k);
    WithKeySnoc(init, last, key, k);
  }

  /** Selecting one key from a sequence extended by one element. */
  lemma WithKeySnoc<T>(s: seq<T>, y: T, key: T -> int, k: int)
    ensures WithKey(s + [y], key, k) == WithKey(s, key, k) + (if key(y) == k then [y] else [])
  {
    assert (s + [y])[..|s|] == s;
  }

  /**
   * Insertion sort by `key`. The result is ascending, a permutation of the
   * input, and stable: for each key, the elements carrying it keep their
   * relative order.
   */
  function SortBy<T>(s: seq<T>, key: T -> int): (r: seq<T>)
    ensures |r| == |s|
    ensures multiset(r) == multiset(s)
    ensures SortedBy(r, key)
    ensures forall k :: WithKey(r, key, k) == WithKey(s, key, k)
    decreases |s|
  {
    if |s| == 0 then []
    else
      var init := s[..|s| - 1];
      var sorted := SortBy(init, key);
      assert s == init + [s[|s| - 1]];
      InsertSorted(s[|s| - 1], sorted, key);
      InsertPermutes(s[|s| - 1], sorted, key);
      assert forall k :: WithKey(Insert(s[|s| - 1], sorted, key), key, k) == WithKey(s, key, k) by {
        forall k
          ensures WithKey(Insert(s[|s| - 1], sorted, key), key, k) == WithKey(s, key, k)
        {
          InsertWithKey(s[|s| - 1], sorted, key, k);
        }
      }
      Insert(s[|s| - 1], sorted, key)
  }
}

=== FILE: outbox.dfy ===
/**
 * The transactional outbox as the pieces are meant to be used together: a
 * business write and `SaveEventAsync` run as one action under
 * `ResilientTransaction.ExecuteAsync`, so the event row commits exactly when
 * the business data does.
 */
module Outbox {

  import opened Wrappers
  import opened Primitives
  import opened Exceptions
  import opened Events
  import opened EventStates
  import opened LogEntries
  import opened EventLogService
  import opened Transactions
  import opened ResilientTransactions

  /** A database holding business data of type `B` next to the event log table. */
  datatype Database<B> = Database(business: B, eventLog: EventLog)

  /**
   * The usual unit of work: the business write (which may throw, and may
   * behave differently on a re-run), then the event saved in the same
   * transaction.
   */
  function SaveWithBusiness<B>(write: (B, nat) -> Result<B, Error>, e: IntegrationEvent, codec: JsonCodec)
    : Action<Database<B>>
  {
    (db: Database<B>, tx: Transaction, k: nat) =>
      match write(db.business, k)
      case Failure(err) => Failure(err)
      case Success(b) =>
        match SaveEvent(db.eventLog, e, Some(tx), codec)
        case Failure(err) => Failure(err)
        case Success(log) => Success(Database(b, log))
  }

  /** What one attempt commits when it succeeds: the written business data and a single unpublished row for the event. */
  ghost predicate CommittedTogether<B>(
    db: Database<B>, after: Database<B>, write: (B, nat) -> Result<B, Error>,
    e: IntegrationEvent, codec: JsonCodec, txId: Guid, j: nat)
  {
    && write(db.business, j) == Success(after.business)
    && multiset(EventIds(after.eventLog.rows))[e.id] == 1
    && (forall i :: 0 <= i < |after.eventLog.rows| && after.eventLog.rows[i].eventId == e.id ==>
          after.eventLog.rows[i].state == NotPublished && after.eventLog.rows[i].transactionId == txId)
    && NewEntry(e, txId, codec) in PendingInOrder(after.eventLog, txId)
  }

  /** A successful attempt of the unit of work commits the business write and the event row together. */
  lemma AttemptCommitsBoth<B>(
    db: Database<B>, after: Database<B>, write: (B, nat) -> Result<B, Error>,
    e: IntegrationEvent, codec: JsonCodec, tx: Transaction, j: nat)
    requires SaveWithBusiness(write, e, codec)(db, tx, j) == Success(after)
    ensures CommittedTogether(db, after, write, e, codec, tx.transactionId, j)
  {
    var saved := SaveEvent(db.eventLog, e, Some(tx), codec);
    assert saved.Success? && saved.value == after.eventLog;
    SavedOnce(db.eventLog, e, tx, codec);
    var row := NewEntry(e, tx.transactionId, codec);
    var log := after.eventLog;
    assert log.rows[|db.eventLog.rows|] == row;
    assert multiset(log.rows)[row] > 0;
    assert IsPending(row, tx.transactionId);
    assert multiset(PendingInOrder(log, tx.transactionId))[row] > 0;
  }

  /**
   * Both or neither: if the execution fails, the database is exactly as before,
   * so an event that was not saved before is still absent; if it succeeds,
   * some attempt's business write and event row were committed together, the
   * row unpublished and tagged with that attempt's transaction, and it is
   * among the rows pending for that transaction.
   */
  lemma OutboxAtomicity<B>(
    db: Database<B>, write: (B, nat) -> Result<B, Error>, e: IntegrationEvent, codec: JsonCodec,
    strategy: ExecutionStrategy, beginId: nat -> Guid)
    ensures var r := Execute(ResilientTransaction(db), SaveWithBusiness(write, e, codec), strategy, beginId);
      r.outcome.Failure? ==> r.database == db && (!HasEvent(db.eventLog, e.id) ==> !HasEvent(r.database.eventLog, e.id))
    ensures var r := Execute(ResilientTransaction(db), SaveWithBusiness(write, e, codec), strategy, beginId);
      r.outcome.Success? ==>
        (exists j :: 0 <= j <= strategy.maxRetryCount && CommittedTogether(db, r.database, write, e, codec, beginId(j), j))
  {
    var action := SaveWithBusiness(write, e, codec);
    var r := Execute(ResilientTransaction(db), action, strategy, beginId);
    if r.outcome.Success? {
      var j :| 0 <= j <= strategy.maxRetryCount && action(db, Transaction(beginId(j)), j) == Success(r.database);
      AttemptCommitsBoth(db, r.database, write, e, codec, Transaction(beginId(j)), j);
    }
  }
}

=== FILE: resilient_transaction.dfy ===
/**
 * `ResilientTransaction`: runs a unit of work between `BeginTransaction` and
 * `Commit`, under an execution strategy that may re-run the whole body.
 *
 * The database is a value of type `S`. Beginning a transaction snapshots it;
 * the action computes a new value from the snapshot; commit makes that value
 * the database; leaving the body without commit (the `await using` disposal)
 * rolls back to the snapshot.
 */
module ResilientTransactions {

  import opened Wrappers
  import opened Primitives
  import opened Exceptions
  import opened Transactions

  /** A `ResilientTransaction` over a non-null context holding database state `S`. */
  datatype ResilientTransaction<S> = ResilientTransaction(context: S)

  /** `ResilientTransaction.New(context)`: a null context is rejected. */
  function New<S>(context: Option<S>): (r: Result<ResilientTransaction<S>, Error>)
    ensures r.Failure? <==> context.None?
    ensures r.Failure? ==> r.error == ArgumentNull("context")
    ensures r.Success? ==> r.value.context == context.value
  {
    match context
    case None => Failure(ArgumentNull("context"))
    case Some(c) => Success(ResilientTransaction(c))
  }

  /**
   * The unit of work: given the state seen inside the transaction, the open
   * transaction and the attempt number, it returns the state to commit or the
   * exception it throws. The attempt number lets a transient failure in one
   * attempt be followed by success in the next.
   */
  type Action<!S> = (S, Transaction, nat) -> Result<S, Error>

  /**
   * The execution strategy: how many times a transiently failed body is re-run.
   * A count of 0 stands for the provider's default, non-retrying strategy.
   */
  datatype ExecutionStrategy = ExecutionStrategy(maxRetryCount: nat)

  /**
   * The exception `ExecuteAsync` lets out when the body throws `err` and is not
   * re-run: a retrying strategy that gives up on a transient failure wraps it in
   * `RetryLimitExceededException`; every other exception propagates as it is.
   */
  function Surfaced(err: Error, strategy: ExecutionStrategy): (r: Error)
    ensures err.IsTransient() && strategy.maxRetryCount > 0 ==> r.RetryLimitExceeded? && r.inner == err
    ensures !(err.IsTransient() && strategy.maxRetryCount > 0) ==> r == err
  {
    if err.IsTransient() && strategy.maxRetryCount > 0 then RetryLimitExceeded(err) else err
  }

  /** What an execution does, in order. */
  datatype Step =
    | Begin(transactionId: Guid)
    | ActionCompleted
    | ActionThrew(error: Error)
    | Commit(transactionId: Guid)

  /** The outcome of `ExecuteAsync`: the database afterwards, success or the propagated exception, and the trace. */
  datatype Execution<S> = Execution(database: S, outcome: Result<(), Error>, steps: seq<Step>)

  /** The ids of the transactions begun, in order. */
  function Begun(steps: seq<Step>): (r: seq<Guid>)
    ensures |r| <= |steps|
  {
    if |steps| == 0 then []
    else (if steps[0].Begin? then [steps[0].transactionId] else []) + Begun(steps[1..])
  }

  /** `Begun` distributes over concatenation. */
  lemma {:induction false} BegunAppend(a: seq<Step>, b: seq<Step>)
    ensures Begun(a + b) == Begun(a) + Begun(b)
    decreases |a|
  {
    if |a| == 0 {
      assert a + b == b;
    } else {
      assert (a + b)[0] == a[0];
      assert (a + b)[1..] == a[1..] + b;
      BegunAppend(a[1..], b);
    }
  }

  /** A well-formed trace: commit only last and only right after the action completed in that transaction; a re-run only after a transient failure. */
  ghost predicate WellOrdered(steps: seq<Step>) {
    && |steps| >= 2
    && steps[0].Begin?
    && (forall i :: 0 <= i < |steps| && steps[i].Commit? ==>
          i == |steps| - 1 && i >= 2 && steps[i - 1] == ActionCompleted && steps[i - 2] == Begin(steps[i].transactionId))
    && (forall i :: 0 < i < |steps| && steps[i].Begin? ==>
          steps[i - 1].ActionThrew? && steps[i - 1].error.IsTransient())
  }

  /** The trace of an attempt that commits is well ordered and begins one transaction. */
  lemma CommittedTrace(id: Guid)
    ensures WellOrdered([Begin(id), ActionCompleted, Commit(id)])
    ensures Begun([Begin(id), ActionCompleted, Commit(id)]) == [id]
  {
    var steps := [Begin(id), ActionCompleted, Commit(id)];
    assert steps[1..] == [ActionCompleted, Commit(id)];
    assert steps[1..][1..] == [Commit(id)];
    assert [Commit(id)][1..] == [];
    assert Begun([Commit(id)]) == [];
    assert Begun([ActionCompleted, Commit(id)]) == [];
  }

  /** The trace of an attempt that throws is well ordered up to its end and begins one transaction. */
  lemma FailedTrace(id: Guid, err: Error)
    ensures WellOrdered([Begin(id), ActionThrew(err)])
    ensures Begun([Begin(id), ActionThrew(err)]) == [id]
  {
    assert [Begin(id), ActionThrew(err)][1..] == [ActionThrew(err)];
    assert [ActionThrew(err)][1..] == [];
  }

  /** Prefixing a well-ordered trace with a transiently failed attempt keeps it well ordered. */
  lemma RetriedTrace(id: Guid, err: Error, rest: seq<Step>)
    requires err.IsTransient()
    requires WellOrdered(rest)
    ensures WellOrdered([Begin(id), ActionThrew(err)] + rest)
    ensures Begun([Begin(id), ActionThrew(err)] + rest) == [id] + Begun(rest)
  {
    var steps := [Begin(id), ActionThrew(err)] + rest;
    assert forall i :: 2 <= i < |steps| ==> steps[i] == rest[i - 2];
    FailedTrace(id, err);
    BegunAppend([Begin(id), ActionThrew(err)], rest);
  }

  /** The number of the last attempt an execution that started at attempt `k` made. */
  function LastAttempt<S>(k: nat, r: Execution<S>): int {
    k + |Begun(r.steps)| - 1
  }

  /**
   * What running the body from attempt `k` on amounts to: a well-ordered trace
   * whose transactions are `beginId(k)`, `beginId(k + 1)`, ... up to the last
   * attempt, no more than the retries left allow; every attempt before the
   * last threw a transient exception, so a success or a final exception ends
   * the retries and the first successful attempt is the one committed; the outcome is the last
   * attempt's result; on success that attempt's state is the database and its
   * commit ends the trace; on failure the snapshot stays, the last attempt
   * threw a final exception or ran out of retries, and what surfaces is that
   * exception as the strategy reports it. Step by step, the trace is exactly
   * what attempts `k` to the last did (`StepsFrom`).
   */
  ghost predicate RunsFrom<S>(snapshot: S, action: Action<S>, strategy: ExecutionStrategy, beginId: nat -> Guid, k: nat, r: Execution<S>) {
    var last := LastAttempt(k, r);
    && TraceFrom(strategy, beginId, k, r.steps)
    && TransientBefore(snapshot, action, beginId, k, last)
    && OutcomeOf(snapshot, action, strategy, beginId, last, r)
    && r.steps == StepsFrom(snapshot, action, beginId, k, last)
  }

  /** The steps one attempt records: begin, then the action's completion and the commit, or the exception it threw. */
  function AttemptSteps<S>(snapshot: S, action: Action<S>, beginId: nat -> Guid, j: nat): (r: seq<Step>)
    ensures |r| >= 2 && r[0] == Begin(beginId(j))
  {
    var res := action(snapshot, Transaction(beginId(j)), j);
    if res.Success? then [Begin(beginId(j)), ActionCompleted, Commit(beginId(j))]
    else [Begin(beginId(j)), ActionThrew(res.error)]
  }

  /** The steps of attempts `k` to `last` in turn. */
  function StepsFrom<S>(snapshot: S, action: Action<S>, beginId: nat -> Guid, k: nat, last: int): seq<Step>
    decreases last - k
  {
    if last < k then [] else AttemptSteps(snapshot, action, beginId, k) + StepsFrom(snapshot, action, beginId, k + 1, last)
  }

  /** The trace is well ordered and begins `beginId(k)`, `beginId(k + 1)`, ..., within the retries left. */
  ghost predicate TraceFrom(strategy: ExecutionStrategy, beginId: nat -> Guid, k: nat, steps: seq<Step>) {
    && WellOrdered(steps)
    && 1 <= |Begun(steps)| <= strategy.maxRetryCount - k + 1
    && (forall i :: 0 <= i < |Begun(steps)| ==> Begun(steps)[i] == beginId(k + i))
  }

  /** The execution's outcome, database and final step are those of attempt `last`. */
  ghost predicate OutcomeOf<S>(snapshot: S, action: Action<S>, strategy: ExecutionStrategy, beginId: nat -> Guid, last: int, r: Execution<S>)
    requires last >= 0
  {
    && (r.outcome.Success? <==> action(snapshot, Transaction(beginId(last)), last).Success?)
    && (r.outcome.Success? ==>
          && Success(r.database) == action(snapshot, Transaction(beginId(last)), last)
          && |r.steps| > 0 && r.steps[|r.steps| - 1] == Commit(beginId(last)))
    && (r.outcome.Failure? ==>
          && r.database == snapshot
          && action(snapshot, Transaction(beginId(last)), last).Failure?
          && |r.steps| > 0 && r.steps[|r.steps| - 1] == ActionThrew(action(snapshot, Transaction(beginId(last)), last).error)
          && r.outcome.error == Surfaced(action(snapshot, Transaction(beginId(last)), last).error, strategy)
          && (!action(snapshot, Transaction(beginId(last)), last).error.IsTransient() || last == strategy.maxRetryCount))
  }

  /** Every attempt from `k` up to, not including, `last` threw a transient exception. */
  ghost predicate TransientBefore<S>(snapshot: S, action: Action<S>, beginId: nat -> Guid, k: nat, last: int) {
    forall j :: k <= j < last ==>
      action(snapshot, Transaction(beginId(j)), j).Failure? && action(snapshot, Transaction(beginId(j)), j).error.IsTransient()
  }

  /** A transient failure at attempt `k` extends a transient run of attempts from `k + 1`. */
  lemma TransientBeforeExtend<S>(snapshot: S, action: Action<S>, beginId: nat -> Guid, k: nat, last: int)
    requires action(snapshot, Transaction(beginId(k)), k).Failure?
    requires action(snapshot, Transaction(beginId(k)), k).error.IsTransient()
    requires TransientBefore(snapshot, action, beginId, k + 1, last)
    ensures TransientBefore(snapshot, action, beginId, k, last)
  {
  }

  /** A transiently failed attempt `k` followed by a trace from `k + 1` is a trace from `k`. */
  lemma RetriedTraceFrom(strategy: ExecutionStrategy, beginId: nat -> Guid, k: nat, err: Error, rest: seq<Step>)
    requires k < strategy.maxRetryCount
    requires err.IsTransient()
    requires TraceFrom(strategy, beginId, k + 1, rest)
    ensures TraceFrom(strategy, beginId, k, [Begin(beginId(k)), ActionThrew(err)] + rest)
    ensures |Begun([Begin(beginId(k)), ActionThrew(err)] + rest)| == |Begun(rest)| + 1
  {
    var steps := [Begin(beginId(k)), ActionThrew(err)] + rest;
    RetriedTrace(beginId(k), err, rest);
    assert forall i :: 1 <= i < |Begun(steps)| ==> Begun(steps)[i] == Begun(rest)[i - 1];
  }

  /** An attempt whose action completes commits its result. */
  lemma CommitRuns<S>(snapshot: S, action: Action<S>, strategy: ExecutionStrategy, beginId: nat -> Guid, k: nat)
    requires k <= strategy.maxRetryCount
    requires action(snapshot, Transaction(beginId(k)), k).Success?
    ensures RunsFrom(snapshot, action, strategy, beginId, k,
      Execution(action(snapshot, Transaction(beginId(k)), k).value, Success(()), [Begin(beginId(k)), ActionCompleted, Commit(beginId(k))]))
  {
    CommittedTrace(beginId(k));
    assert StepsFrom(snapshot, action, beginId, k + 1, k) == [];
  }

  /** An attempt whose action throws and is not re-run rolls back and surfaces the exception. */
  lemma FailRuns<S>(snapshot: S, action: Action<S>, strategy: ExecutionStrategy, beginId: nat -> Guid, k: nat)
    requires k <= strategy.maxRetryCount
    requires action(snapshot, Transaction(beginId(k)), k).Failure?
    requires !action(snapshot, Transaction(beginId(k)), k).error.IsTransient() || k == strategy.maxRetryCount
    ensures var err := action(snapshot, Transaction(beginId(k)), k).error;
      RunsFrom(snapshot, action, strategy, beginId, k,
        Execution(snapshot, Failure(Surfaced(err, strategy)), [Begin(beginId(k)), ActionThrew(err)]))
  {
    FailedTrace(beginId(k), action(snapshot, Transaction(beginId(k)), k).error);
    assert StepsFrom(snapshot, action, beginId, k + 1, k) == [];
  }

  /** A transiently failed attempt followed by a run from the next attempt is a run from this one. */
  lemma RetryRuns<S>(snapshot: S, action: Action<S>, strategy: ExecutionStrategy, beginId: nat -> Guid, k: nat, rest: Execution<S>)
    requires k < strategy.maxRetryCount
    requires action(snapshot, Transaction(beginId(k)), k).Failure?
    requires action(snapshot, Transaction(beginId(k)), k).error.IsTransient()
    requires RunsFrom(snapshot, action, strategy, beginId, k + 1, rest)
    ensures var err := action(snapshot, Transaction(beginId(k)), k).error;
      RunsFrom(snapshot, action, strategy, beginId, k,
        Execution(rest.database, rest.outcome, [Begin(beginId(k)), ActionThrew(err)] + rest.steps))
  {
    var err := action(snapshot, Transaction(beginId(k)), k).error;
    var steps := [Begin(beginId(k)), ActionThrew(err)] + rest.steps;
    var r := Execution(rest.database, rest.outcome, steps);
    var last := LastAttempt(k + 1, rest);
    RetriedTraceFrom(strategy, beginId, k, err, rest.steps);
    TransientBeforeExtend(snapshot, action, beginId, k, last);
    RetriedOutcome(snapshot, action, strategy, beginId, last, [Begin(beginId(k)), ActionThrew(err)], rest);
    RetriedSteps(snapshot, action, beginId, k, last, rest.steps);
    RunsFromParts(snapshot, action, strategy, beginId, k, last, r);
  }

  /** The four parts of `RunsFrom`, given separately for the attempt `last` the trace ends with. */
  lemma RunsFromParts<S>(snapshot: S, action: Action<S>, strategy: ExecutionStrategy, beginId: nat -> Guid, k: nat, last: int, r: Execution<S>)
    requires LastAttempt(k, r) == last && last >= 0
    requires TraceFrom(strategy, beginId, k, r.steps)
    requires TransientBefore(snapshot, action, beginId, k, last)
    requires OutcomeOf(snapshot, action, strategy, beginId, last, r)
    requires r.steps == StepsFrom(snapshot, action, beginId, k, last)
    ensures RunsFrom(snapshot, action, strategy, beginId, k, r)
  {
  }

  /** Steps put in front of a trace leave its outcome, database and final step alone. */
  lemma RetriedOutcome<S>(snapshot: S, action: Action<S>, strategy: ExecutionStrategy, beginId: nat -> Guid, last: nat,
                          prefix: seq<Step>, rest: Execution<S>)
    requires |rest.steps| > 0
    requires OutcomeOf(snapshot, action, strategy, beginId, last, rest)
    ensures OutcomeOf(snapshot, action, strategy, beginId, last, Execution(rest.database, rest.outcome, prefix + rest.steps))
  {
    var steps := prefix + rest.steps;
    assert steps[|steps| - 1] == rest.steps[|rest.steps| - 1];
  }

  /** A transient failure at attempt `k` followed by the steps of attempts `k + 1` to `last` are the steps from `k`. */
  lemma RetriedSteps<S>(snapshot: S, action: Action<S>, beginId: nat -> Guid, k: nat, last: int, rest: seq<Step>)
    requires k < last
    requires action(snapshot, Transaction(beginId(k)), k).Failure?
    requires rest == StepsFrom(snapshot, action, beginId, k + 1, last)
    ensures [Begin(beginId(k)), ActionThrew(action(snapshot, Transaction(beginId(k)), k).error)] + rest
         == StepsFrom(snapshot, action, beginId, k, last)
  {
  }

  /**
   * One run of the strategy's body from attempt `k` on: begin a fresh
   * transaction (its id is `beginId(k)`), run the action on the snapshot,
   * commit on success; on a transient failure with retries left, roll back and
   * run the body again; otherwise roll back and surface the failure.
   */
  function Attempt<S>(snapshot: S, action: Action<S>, strategy: ExecutionStrategy, beginId: nat -> Guid, k: nat)
    : (r: Execution<S>)
    requires k <= strategy.maxRetryCount
    ensures RunsFrom(snapshot, action, strategy, beginId, k, r)
    decreases strategy.maxRetryCount - k
  {
    var tx := Transaction(beginId(k));
    var res := action(snapshot, tx, k);
    if res.Success? then
      CommitRuns(snapshot, action, strategy, beginId, k);
      Execution(res.value, Success(()), [Begin(tx.transactionId), ActionCompleted, Commit(tx.transactionId)])
    else if res.error.IsTransient() && k < strategy.maxRetryCount then
      var rest := Attempt(snapshot, action, strategy, beginId, k + 1);
      RetryRuns(snapshot, action, strategy, beginId, k, rest);
      Execution(rest.database, rest.outcome, [Begin(tx.transactionId), ActionThrew(res.error)] + rest.steps)
    else
      FailRuns(snapshot, action, strategy, beginId, k);
      Execution(snapshot, Failure(Surfaced(res.error, strategy)), [Begin(tx.transactionId), ActionThrew(res.error)])
  }

  /** `ExecuteAsync(action)`: the strategy runs the body from the first attempt on the context's current state. */
  function Execute<S>(rt: ResilientTransaction<S>, action: Action<S>, strategy: ExecutionStrategy, beginId: nat -> Guid)
    : (r: Execution<S>)
    ensures RunsFrom(rt.context, action, strategy, beginId, 0, r)
    ensures r.outcome.Failure? ==> forall i :: 0 <= i < |r.steps| ==> !r.steps[i].Commit?
    ensures r.outcome.Failure? ==> r.database == rt.context
    ensures r.outcome.Failure? ==>
      (exists j :: 0 <= j <= strategy.maxRetryCount && action(rt.context, Transaction(beginId(j)), j).Failure?
         && r.outcome.error == Surfaced(action(rt.context, Transaction(beginId(j)), j).error, strategy))
    ensures r.outcome.Success? ==>
      (exists j :: 0 <= j <= strategy.maxRetryCount && action(rt.context, Transaction(beginId(j)), j) == Success(r.database))
  {
    var r := Attempt(rt.context, action, strategy, beginId, 0);
    var j := |Begun(r.steps)| - 1;
    if r.outcome.Success? then
      assert action(rt.context, Transaction(beginId(j)), j) == Success(r.database);
      r
    else
      assert action(rt.context, Transaction(beginId(j)), j).Failure?;
      r
  }

  /** Without retries the action runs once, in one transaction, and the execution mirrors its result. */
  lemma NoRetryRunsOnce<S>(rt: ResilientTransaction<S>, action: Action<S>, beginId: nat -> Guid)
    ensures var r := Execute(rt, action, ExecutionStrategy(0), beginId);
      && Begun(r.steps) == [beginId(0)]
      && (r.outcome.Success? <==> action(rt.context, Transaction(beginId(0)), 0).Success?)
      && (r.outcome.Failure? ==> r.outcome.error == action(rt.context, Transaction(beginId(0)), 0).error)
  {
  }

  /**
   * A retrying strategy facing an action that fails transiently every time runs
   * it once per allowed attempt, each in a fresh transaction, then gives up with
   * `RetryLimitExceededException` around the last attempt's exception.
   */
  lemma RetriesExhausted<S>(rt: ResilientTransaction<S>, action: Action<S>, strategy: ExecutionStrategy, beginId: nat -> Guid)
    requires strategy.maxRetryCount > 0
    requires forall tx, j :: action(rt.context, tx, j).Failure? && action(rt.context, tx, j).error.IsTransient()
    ensures var r := Execute(rt, action, strategy, beginId);
      && |Begun(r.steps)| == strategy.maxRetryCount + 1
      && r.outcome.Failure?
      && r.outcome.error == RetryLimitExceeded(action(rt.context, Transaction(beginId(strategy.maxRetryCount)), strategy.maxRetryCount).error)
  {
    var r := Execute(rt, action, strategy, beginId);
    var last := LastAttempt(0, r);
    assert action(rt.context, Transaction(beginId(last)), last).Failure?;
  }

  /**
   * Retries stop at the first attempt that completes: when attempts before `j`
   * failed transiently and attempt `j` succeeds, exactly `j + 1` transactions
   * are begun and attempt `j`'s result is committed.
   */
  lemma FirstSuccessCommitted<S>(rt: ResilientTransaction<S>, action: Action<S>, strategy: ExecutionStrategy, beginId: nat -> Guid, j: nat)
    requires j <= strategy.maxRetryCount
    requires TransientBefore(rt.context, action, beginId, 0, j)
    requires action(rt.context, Transaction(beginId(j)), j).Success?
    ensures var r := Execute(rt, action, strategy, beginId);
      && |Begun(r.steps)| == j + 1
      && r.outcome.Success?
      && Success(r.database) == action(rt.context, Transaction(beginId(j)), j)
  {
    var r := Execute(rt, action, strategy, beginId);
    assert LastAttempt(0, r) == j;
  }

  /**
   * A non-transient exception ends the retries: when attempts before `j`
   * failed transiently and attempt `j` throws a final exception, exactly
   * `j + 1` transactions are begun, nothing is committed and that exception
   * surfaces unchanged.
   */
  lemma FinalFailureStops<S>(rt: ResilientTransaction<S>, action: Action<S>, strategy: ExecutionStrategy, beginId: nat -> Guid, j: nat)
    requires j <= strategy.maxRetryCount
    requires TransientBefore(rt.context, action, beginId, 0, j)
    requires action(rt.context, Transaction(beginId(j)), j).Failure?
    requires !action(rt.context, Transaction(beginId(j)), j).error.IsTransient()
    ensures var r := Execute(rt, action, strategy, beginId);
      && |Begun(r.steps)| == j + 1
      && r.outcome == Failure(action(rt.context, Transaction(beginId(j)), j).error)
      && r.database == rt.context
  {
    var r := Execute(rt, action, strategy, beginId);
    assert LastAttempt(0, r) == j;
  }
}

=== FILE: strings.dfy ===
/** The few `System.String` operations the core relies on, over `seq<char>`. */
module Strings {

  /** `s.EndsWith(suffix)` under an ordinal comparison: `s` is some prefix followed by `suffix`. */
  function EndsWith(s: string, suffix: string): (b: bool)
    ensures b ==> |suffix| <= |s| && s == s[..|s| - |suffix|] + suffix
  {
    |suffix| <= |s| && s[|s| - |suffix|..] == suffix
  }

  /** Every prefix followed by `suffix` ends with `suffix`. */
  lemma EndsWithAppend(p: string, suffix: string)
    ensures EndsWith(p + suffix, suffix)
  {
    assert (p + suffix)[|p|..] == suffix;
  }

  /** `s.IndexOf(c)`: the first position holding `c`, or -1 when there is none. */
  function IndexOf<T(==)>(s: seq<T>, c: T): (r: int)
    ensures r == -1 <==> c !in s
    ensures r != -1 ==> 0 <= r < |s| && s[r] == c && c !in s[..r]
  {
    if |s| == 0 then -1
    else if s[0] == c then 0
    else
      var k := IndexOf(s[1..], c);
      assert s[1..][..if k == -1 then 0 else k] == s[1..1 + if k == -1 then 0 else k];
      if k == -1 then -1 else k + 1
  }

  /** A position holding `c` with no `c` before it is what `IndexOf` finds. */
  lemma IndexOfFirst<T>(s: seq<T>, c: T, k: nat)
    requires k < |s| && s[k] == c
    requires forall j :: 0 <= j < k ==> s[j] != c
    ensures IndexOf(s, c) == k
  {
    assert s[k] in s;
  }

  /** `string.Join(sep, parts)` for a one-character separator; `JoinEnds` says what it starts and ends with. */
  function Join(parts: seq<string>, sep: char): string
  {
    if |parts| == 0 then ""
    else if |parts| == 1 then parts[0]
    else parts[0] + [sep] + Join(parts[1..], sep)
  }

  /**
   * A join starts with the first part, a separator follows it whenever there
   * is a second part, and no parts join to the empty string.
   */
  lemma JoinStarts(parts: seq<string>, sep: char)
    ensures |parts| == 0 ==> Join(parts, sep) == ""
    ensures |parts| >= 1 ==> parts[0] <= Join(parts, sep)
    ensures |parts| >= 2 ==> |parts[0]| < |Join(parts, sep)| && Join(parts, sep)[|parts[0]|] == sep
  {
    if |parts| >= 2 {
      var j := Join(parts, sep);
      assert j == parts[0] + [sep] + Join(parts[1..], sep);
      assert j[..|parts[0]|] == parts[0];
    }
  }

  /** A join of at least one part ends with the last part. */
  lemma {:induction false} JoinEnds(parts: seq<string>, sep: char)
    requires |parts| >= 1
    ensures EndsWith(Join(parts, sep), parts[|parts| - 1])
    decreases |parts|
  {
    var last := parts[|parts| - 1];
    if |parts| == 1 {
      EndsWithAppend([], last);
      assert [] + last == last;
    } else {
      var rest := Join(parts[1..], sep);
      JoinEnds(parts[1..], sep);
      assert parts[1..][|parts[1..]| - 1] == last;
      var p := rest[..|rest| - |last|];
      assert rest == p + last;
      assert Join(parts, sep) == (parts[0] + [sep] + p) + last;
      EndsWithAppend(parts[0] + [sep] + p, last);
    }
  }

  /** `s.Split(sep)`: the pieces between separators, empty pieces kept. */
  function Split(s: string, sep: char): (r: seq<string>)
    ensures |r| >= 1
    ensures forall i :: 0 <= i < |r| ==> sep !in r[i]
    ensures Join(r, sep) == s
    decreases |s|
  {
    var k := IndexOf(s, sep);
    if k == -1 then [s]
    else
      var rest := Split(s[k + 1..], sep);
      var r := [s[..k]] + rest;
      assert r[1..] == rest;
      assert Join(r, sep) == s[..k] + [sep] + Join(rest, sep);
      assert s == s[..k] + [sep] + s[k + 1..];
      assert forall i :: 1 <= i < |r| ==> r[i] == rest[i - 1];
      r
  }

  /** `Join` distributes over appending one more piece. */
  lemma {:induction false} JoinSnoc(parts: seq<string>, x: string, sep: char)
    requires |parts| >= 1
    ensures Join(parts + [x], sep) == Join(parts, sep) + [sep] + x
    decreases |parts|
  {
    if |parts| == 1 {
      assert parts + [x] == [parts[0], x];
      assert [parts[0], x][1..] == [x];
    } else {
      assert (parts + [x])[1..] == parts[1..] + [x];
      JoinSnoc(parts[1..], x, sep);
    }
  }

  /** Splitting a join of separator-free pieces gives the pieces back. */
  lemma {:induction false} SplitJoin(parts: seq<string>, sep: char)
    requires |parts| >= 1
    requires forall i :: 0 <= i < |parts| ==> sep !in parts[i]
    ensures Split(Join(parts, sep), sep) == parts
    decreases |parts|
  {
    if |parts| == 1 {
      assert IndexOf(parts[0], sep) == -1;
    } else {
      var s := Join(parts, sep);
      var p := parts[0];
      assert s == p + [sep] + Join(parts[1..], sep);
      assert s[..|p|] == p;
      assert IndexOf(s, sep) == |p| by {
        assert s[|p|] == sep;
        assert sep !in s[..|p|];
      }
      assert s[|p| + 1..] == Join(parts[1..], sep);
      SplitJoin(parts[1..], sep);
    }
  }

  /** The last piece of `Split`: what `s.Split(sep).Last()` returns. */
  function LastSegment(s: string, sep: char): (r: string)
    ensures sep !in r
    ensures |r| <= |s| && s[|s| - |r|..] == r
    ensures r == s || s[|s| - |r| - 1] == sep
  {
    var pieces := Split(s, sep);
    var r := pieces[|pieces| - 1];
    if |pieces| == 1 then r
    else
      JoinSnoc(pieces[..|pieces| - 1], r, sep);
      assert pieces[..|pieces| - 1] + [r] == pieces;
      r
  }

  /** Whatever precedes the last separator, the segment after it is the last segment. */
  lemma LastSegmentAfterSeparator(prefix: string, segment: string, sep: char)
    requires sep !in segment
    ensures LastSegment(prefix + [sep] + segment, sep) == segment
  {
    var s := prefix + [sep] + segment;
    var r := LastSegment(s, sep);
    assert s[|s| - |segment| - 1] == sep;
    assert s[|s| - |segment|..] == segment;
  }

  /** A string without the separator is its own last segment. */
  lemma LastSegmentOfPlain(s: string, sep: char)
    requires sep !in s
    ensures LastSegment(s, sep) == s
  {
  }
}

=== FILE: subscriptions.dfy ===
/**
 * `EventBusSubscriptionInfo` and the `EventBusBuilderExtensions` that fill it.
 *
 * The builder does not touch a `SubscriptionInfo` directly: it records
 * keyed handler registrations and `Configure<EventBusSubscriptionInfo>`
 * callbacks in the service collection. The options instance is built later by
 * running the callbacks, in registration order, over a fresh instance.
 */
module Subscriptions {

  import opened Wrappers
  import opened ClrTypes
  import opened Events
  import opened Handlers

  /**
   * A `JsonSerializerOptions` value. Serialisation itself is not modelled, so
   * the options are an opaque bag of named settings.
   */
  datatype JsonOptions = JsonOptions(settings: map<string, string>)

  /**
   * `DefaultSerializerOptions`: the type-info resolver is the reflection-based
   * one when reflection is enabled, an empty combined resolver otherwise.
   */
  function DefaultSerializerOptions(reflectionEnabled: bool): (r: JsonOptions)
    ensures "TypeInfoResolver" in r.settings
  {
    JsonOptions(map["TypeInfoResolver" := if reflectionEnabled then "DefaultJsonTypeInfoResolver" else "Combine()"])
  }

  /** The subscription record: simple event name to event type, and this instance's serialiser options. */
  datatype SubscriptionInfo = SubscriptionInfo(eventTypes: map<string, ClrType>, jsonOptions: JsonOptions)

  /** A new instance: no event types yet, and its own copy of the default options. */
  function NewSubscriptionInfo(defaults: JsonOptions): (r: SubscriptionInfo)
    ensures |r.eventTypes| == 0
    ensures r.jsonOptions == defaults
  {
    SubscriptionInfo(map[], defaults)
  }

  /** One `Configure<EventBusSubscriptionInfo>` callback. */
  datatype ConfigureAction =
    | MapEventType(name: string, eventType: ClrType)
    | ConfigureJson(configure: JsonOptions -> JsonOptions)

  /** `AddKeyedTransient<IIntegrationEventHandler, TH>(typeof(T))`. */
  datatype KeyedRegistration = KeyedRegistration(serviceKey: ClrType, implementation: HandlerType)

  /** The parts of `IServiceCollection` the event bus builder writes to, in registration order. */
  datatype Services = Services(handlers: seq<KeyedRegistration>, configureActions: seq<ConfigureAction>)

  /** An `IEventBusBuilder` and the service collection it extends. */
  datatype EventBusBuilder = EventBusBuilder(services: Services)

  /** Running one callback against the options instance. */
  function ApplyConfigure(info: SubscriptionInfo, a: ConfigureAction): (r: SubscriptionInfo)
    ensures a.MapEventType? ==> r.jsonOptions == info.jsonOptions
    ensures a.MapEventType? ==> a.name in r.eventTypes && r.eventTypes[a.name] == a.eventType
    ensures a.MapEventType? ==> forall n :: n != a.name ==> (n in r.eventTypes <==> n in info.eventTypes)
    ensures a.MapEventType? ==> forall n :: n != a.name && n in info.eventTypes ==> r.eventTypes[n] == info.eventTypes[n]
    ensures a.ConfigureJson? ==> r.eventTypes == info.eventTypes
  {
    match a
    case MapEventType(name, t) => info.(eventTypes := info.eventTypes[name := t])
    case ConfigureJson(f) => info.(jsonOptions := f(info.jsonOptions))
  }

  /**
   * The options instance the container hands out: every callback, oldest first,
   * over a fresh instance. Callbacks that only map names leave the default
   * serialiser options in place; `ResolveMapsLast` says which names it maps.
   */
  function ResolveSubscriptionInfo(actions: seq<ConfigureAction>, defaults: JsonOptions): (r: SubscriptionInfo)
    ensures OnlyMappings(actions) ==> r.jsonOptions == defaults
    decreases |actions|
  {
    if |actions| == 0 then NewSubscriptionInfo(defaults)
    else
      assert OnlyMappings(actions) ==> OnlyMappings(actions[..|actions| - 1]);
      ApplyConfigure(ResolveSubscriptionInfo(actions[..|actions| - 1], defaults), actions[|actions| - 1])
  }

  /**
   * A name is mapped exactly when some callback maps it, and to the type given
   * by the last callback that does: a later `AddSubscription` for the same name
   * overrides an earlier one.
   */
  lemma {:induction false} ResolveMapsLast(actions: seq<ConfigureAction>, defaults: JsonOptions)
    ensures var r := ResolveSubscriptionInfo(actions, defaults);
      && (forall n :: n in r.eventTypes <==> MappedBy(actions, n))
      && (forall n :: n in r.eventTypes ==> LastMapping(actions, n, r.eventTypes[n]))
    decreases |actions|
  {
    if |actions| > 0 {
      var init := actions[..|actions| - 1];
      ResolveMapsLast(init, defaults);
      MapsLastSnoc(init, actions[|actions| - 1], ResolveSubscriptionInfo(init, defaults));
      assert actions == init + [actions[|actions| - 1]];
    }
  }

  /** One more callback keeps the mapped names and their last mappings in step. */
  lemma MapsLastSnoc(init: seq<ConfigureAction>, a: ConfigureAction, before: SubscriptionInfo)
    requires forall n :: n in before.eventTypes <==> MappedBy(init, n)
    requires forall n :: n in before.eventTypes ==> LastMapping(init, n, before.eventTypes[n])
    ensures var r := ApplyConfigure(before, a);
      && (forall n :: n in r.eventTypes <==> MappedBy(init + [a], n))
      && (forall n :: n in r.eventTypes ==> LastMapping(init + [a], n, r.eventTypes[n]))
  {
    var actions := init + [a];
    var r := ApplyConfigure(before, a);
    MappedBySnoc(init, a);
    forall n | n in r.eventTypes
      ensures LastMapping(actions, n, r.eventTypes[n])
    {
      if a.MapEventType? && a.name == n {
        MappingLastWins(init, a);
      } else {
        MappingSurvives(init, a, n, before.eventTypes[n]);
      }
    }
  }

  /** The newest callback's mapping is the last one for its name. */
  lemma MappingLastWins(init: seq<ConfigureAction>, a: ConfigureAction)
    requires a.MapEventType?
    ensures LastMapping(init + [a], a.name, a.eventType)
  {
    var actions := init + [a];
    assert actions[|actions| - 1] == a;
    assert actions[|actions|..] == [];
    assert !MappedBy(actions[|actions|..], a.name);
  }

  /** A callback that does not map `n` leaves the last mapping of `n` where it was. */
  lemma MappingSurvives(init: seq<ConfigureAction>, a: ConfigureAction, n: string, t: ClrType)
    requires LastMapping(init, n, t)
    requires !(a.MapEventType? && a.name == n)
    ensures LastMapping(init + [a], n, t)
  {
    var actions := init + [a];
    var i :| 0 <= i < |init| && init[i] == MapEventType(n, t) && !MappedBy(init[i + 1..], n);
    assert actions[i + 1..] == init[i + 1..] + [a];
    MappedBySnoc(init[i + 1..], a);
    assert actions[i] == init[i];
    assert !MappedBy(actions[i + 1..], n);
  }

  /** The last callback in `actions` that maps the name `n` maps it to `t`. */
  predicate LastMapping(actions: seq<ConfigureAction>, n: string, t: ClrType) {
    exists i :: 0 <= i < |actions| && actions[i] == MapEventType(n, t) && !MappedBy(actions[i + 1..], n)
  }

  /** Some callback in `actions` maps the name `n`. */
  predicate MappedBy(actions: seq<ConfigureAction>, n: string) {
    exists i :: 0 <= i < |actions| && actions[i].MapEventType? && actions[i].name == n
  }

  /** Every callback in `actions` maps a name; none edits the serialiser options. */
  predicate OnlyMappings(actions: seq<ConfigureAction>) {
    forall i :: 0 <= i < |actions| ==> actions[i].MapEventType?
  }

  /** Whether one more callback maps `n`. */
  lemma MappedBySnoc(actions: seq<ConfigureAction>, a: ConfigureAction)
    ensures forall n :: MappedBy(actions + [a], n) <==> MappedBy(actions, n) || (a.MapEventType? && a.name == n)
  {
    forall n ensures MappedBy(actions + [a], n) ==> MappedBy(actions, n) || (a.MapEventType? && a.name == n) {
      if MappedBy(actions + [a], n) {
        var i :| 0 <= i < |actions + [a]| && (actions + [a])[i].MapEventType? && (actions + [a])[i].name == n;
        if i < |actions| { assert actions[i] == (actions + [a])[i]; }
      }
    }
    forall n ensures MappedBy(actions, n) ==> MappedBy(actions + [a], n) {
      if MappedBy(actions, n) {
        var i :| 0 <= i < |actions| && actions[i].MapEventType? && actions[i].name == n;
        assert (actions + [a])[i] == actions[i];
      }
    }
    assert (actions + [a])[|actions|] == a;
  }

  /** `GetKeyedServices<IIntegrationEventHandler>(eventType)`: every handler registered under the key, in registration order. */
  function HandlersFor(regs: seq<KeyedRegistration>, eventType: ClrType): (r: seq<HandlerType>)
    ensures |r| <= |regs|
    ensures forall h :: h in r ==> KeyedRegistration(eventType, h) in regs
    decreases |regs|
  {
    if |regs| == 0 then []
    else
      var last := regs[|regs| - 1];
      HandlersFor(regs[..|regs| - 1], eventType) + (if last.serviceKey == eventType then [last.implementation] else [])
  }

  /**
   * Resolution is complete as well as sound: each handler type appears in the
   * resolved list exactly as often as it was registered under the key.
   */
  lemma {:induction false} HandlersForCounts(regs: seq<KeyedRegistration>, eventType: ClrType)
    ensures forall h :: multiset(HandlersFor(regs, eventType))[h] == multiset(regs)[KeyedRegistration(eventType, h)]
    decreases |regs|
  {
    if |regs| > 0 {
      var last := regs[|regs| - 1];
      HandlersForCounts(regs[..|regs| - 1], eventType);
      assert regs == regs[..|regs| - 1] + [last];
    }
  }

  /** The compile-time constraint of `AddSubscription<T, TH>`: `T` is an event type and `TH` handles `T`. */
  predicate SubscriptionAllowed(t: ClrType, th: HandlerType) {
    IsEventType(t) && IsSubtypeOf(t, th.handledEvent)
  }

  /** Every handler in the collection can take every event registered under its key. */
  ghost predicate HandlersWellTyped(services: Services) {
    forall i :: 0 <= i < |services.handlers| ==>
      IsSubtypeOf(services.handlers[i].serviceKey, services.handlers[i].implementation.handledEvent)
  }

  /**
   * `AddSubscription<T, TH>()`: registers `TH` under the key `T` and a callback
   * mapping `T.Name` to `T`; the builder itself is what it returns.
   */
  function AddSubscription(b: EventBusBuilder, t: ClrType, th: HandlerType): (r: EventBusBuilder)
    requires SubscriptionAllowed(t, th)
    ensures HandlersWellTyped(b.services) ==> HandlersWellTyped(r.services)
    ensures |r.services.handlers| == |b.services.handlers| + 1
    ensures |r.services.configureActions| == |b.services.configureActions| + 1
  {
    EventBusBuilder(Services(
      b.services.handlers + [KeyedRegistration(t, th)],
      b.services.configureActions + [MapEventType(t.name, t)]))
  }

  /** `ConfigureJsonOptions(configure)`: registers a callback that edits the instance's serialiser options. */
  function ConfigureJsonOptions(b: EventBusBuilder, configure: JsonOptions -> JsonOptions): (r: EventBusBuilder)
    ensures r.services.handlers == b.services.handlers
    ensures |r.services.configureActions| == |b.services.configureActions| + 1
  {
    EventBusBuilder(Services(b.services.handlers, b.services.configureActions + [ConfigureJson(configure)]))
  }

  /** The resolved event-type map after one more subscription: `T.Name` now maps to `T`, last one wins, other names untouched; the options are untouched. */
  lemma AddSubscriptionMapsName(b: EventBusBuilder, t: ClrType, th: HandlerType, defaults: JsonOptions)
    requires SubscriptionAllowed(t, th)
    ensures var before := ResolveSubscriptionInfo(b.services.configureActions, defaults);
            var after := ResolveSubscriptionInfo(AddSubscription(b, t, th).services.configureActions, defaults);
      && after.eventTypes == before.eventTypes[t.name := t]
      && after.jsonOptions == before.jsonOptions
  {
    var actions := AddSubscription(b, t, th).services.configureActions;
    assert actions[..|actions| - 1] == b.services.configureActions;
  }

  /** Handlers accumulate: the new handler is appended under `T`'s key and every other key keeps its list. */
  lemma AddSubscriptionAppendsHandler(b: EventBusBuilder, t: ClrType, th: HandlerType, u: ClrType)
    requires SubscriptionAllowed(t, th)
    ensures HandlersFor(AddSubscription(b, t, th).services.handlers, u)
         == HandlersFor(b.services.handlers, u) + (if u == t then [th] else [])
  {
    var regs := AddSubscription(b, t, th).services.handlers;
    assert regs[..|regs| - 1] == b.services.handlers;
  }

  /** Subscribing the same pair twice maps the name as once, but registers the handler twice. */
  lemma AddSubscriptionTwice(b: EventBusBuilder, t: ClrType, th: HandlerType, defaults: JsonOptions)
    requires SubscriptionAllowed(t, th)
    ensures var once := AddSubscription(b, t, th);
            var twice := AddSubscription(once, t, th);
      && ResolveSubscriptionInfo(twice.services.configureActions, defaults).eventTypes
         == ResolveSubscriptionInfo(once.services.configureActions, defaults).eventTypes
      && HandlersFor(twice.services.handlers, t) == HandlersFor(b.services.handlers, t) + [th, th]
  {
    var once := AddSubscription(b, t, th);
    var twice := AddSubscription(once, t, th);
    assert ResolveSubscriptionInfo(twice.services.configureActions, defaults).eventTypes
        == ResolveSubscriptionInfo(once.services.configureActions, defaults).eventTypes by {
      AddSubscriptionMapsName(b, t, th, defaults);
      AddSubscriptionMapsName(once, t, th, defaults);
    }
    assert HandlersFor(twice.services.handlers, t) == HandlersFor(b.services.handlers, t) + [th, th] by {
      AddSubscriptionAppendsHandler(b, t, th, t);
      AddSubscriptionAppendsHandler(once, t, th, t);
    }
  }

  /** Configuring the serialiser changes the resolved options only, by applying the callback to them. */
  lemma ConfigureJsonOnlyTouchesOptions(b: EventBusBuilder, configure: JsonOptions -> JsonOptions, defaults: JsonOptions)
    ensures var before := ResolveSubscriptionInfo(b.services.configureActions, defaults);
            var after := ResolveSubscriptionInfo(ConfigureJsonOptions(b, configure).services.configureActions, defaults);
      && after.eventTypes == before.eventTypes
      && after.jsonOptions == configure(before.jsonOptions)
  {
    var actions := ConfigureJsonOptions(b, configure).services.configureActions;
    assert actions[..|actions| - 1] == b.services.configureActions;
  }

  /**
   * The type-info resolver of the default options survives every subscription:
   * callbacks that only map names leave the instance's options equal to the
   * defaults, whichever resolver those picked.
   */
  lemma ResolverSurvivesMappings(actions: seq<ConfigureAction>, reflectionEnabled: bool)
    requires OnlyMappings(actions)
    ensures var info := ResolveSubscriptionInfo(actions, DefaultSerializerOptions(reflectionEnabled));
      && info.jsonOptions == DefaultSerializerOptions(reflectionEnabled)
      && "TypeInfoResolver" in info.jsonOptions.settings
  {
  }

  /** A fresh builder resolves to an instance with no event types and the default options. */
  lemma EmptyBuilderResolvesEmpty(defaults: JsonOptions)
    ensures ResolveSubscriptionInfo(EventBusBuilder(Services([], [])).services.configureActions, defaults)
         == SubscriptionInfo(map[], defaults)
  {
  }

  /**
   * Type-safe dispatch: in a collection built through `AddSubscription`, every
   * handler found under an event type's key takes any event of that type
   * without a failed cast, and runs its typed `Handle` on it.
   */
  lemma RegisteredHandlersAcceptEvents(services: Services, t: ClrType, e: IntegrationEvent, typed: TypedHandle)
    requires HandlersWellTyped(services)
    requires IsSubtypeOf(e.runtimeType, t)
    ensures forall h :: h in HandlersFor(services.handlers, t) ==> Handle(h, e, typed) == typed(h.handlerType, e)
  {
    forall h | h in HandlersFor(services.handlers, t)
      ensures Handle(h, e, typed) == typed(h.handlerType, e)
    {
      var i :| 0 <= i < |services.handlers| && services.handlers[i] == KeyedRegistration(t, h);
      HandlerAcceptsSubtypes(h, t, e, typed);
    }
  }
}

=== FILE: transactions.dfy ===
/** The database transaction handle the event log service writes through. */
module Transactions {

  import opened Primitives

  /** An open `IDbContextTransaction`, known by its `TransactionId`. */
  datatype Transaction = Transaction(transactionId: Guid)
}

=== FILE: wrappers.dfy ===
/** Failure-carrying values used in place of C#'s null and exceptions. */
module Wrappers {

  /** A value that may be absent; `None` stands for a C# `null`. */
  datatype Option<+T> = None | Some(value: T)

  /** Either a value or the exception the source would throw instead. */
  datatype Result<+R, +E> = Success(value: R) | Failure(error: E)
}

/** Scalar types of the .NET runtime, as unbounded Dafny numbers where width does not matter. */
module Primitives {

  /** A `System.Guid`; only equality matters, so a natural number stands for it. */
  type Guid = nat

  /** A `System.DateTime` as its tick count; ordering is tick ordering. */
  type DateTime = int

  const Int32Min: int := -0x8000_0000
  const Int32Max: int := 0x7FFF_FFFF

  /** A C# `int`. */
  newtype Int32 = x: int | Int32Min <= x <= Int32Max

  /** `x++` on a C# `int` in the default unchecked context: `int.MaxValue` wraps to `int.MinValue`. */
  function Increment(x: Int32): (r: Int32)
    ensures x as int < Int32Max ==> r as int == x as int + 1
    ensures x as int == Int32Max ==> r as int == Int32Min
    ensures (r as int - x as int - 1) % 0x1_0000_0000 == 0
  {
    if x as int == Int32Max then Int32Min as Int32 else x + 1
  }
}

/** The exceptions the modelled code can raise, one constructor per kind. */
module Exceptions {

  import opened Primitives

  datatype Error =
    /** `ArgumentNullException` naming the offending parameter. */
    | ArgumentNull(paramName: string)
    /** `ArgumentOutOfRangeException` naming the offending parameter. */
    | ArgumentOutOfRange(paramName: string)
    /** `InvalidOperationException` from `Single` when no element matches. */
    | NoElements
    /** `InvalidOperationException` from `Single` when several elements match. */
    | MoreThanOneElement
    /** The table already holds a row with this primary key. */
    | DuplicateKey(key: Guid)
    /** `InvalidCastException` from a failed reference cast. */
    | InvalidCast
    /** A storage failure the execution strategy classifies as transient. */
    | TransientStorageFailure
    /** `RetryLimitExceededException`: a retrying strategy gave up; `inner` is the last attempt's exception. */
    | RetryLimitExceeded(inner: Error)
    /** Any other failure raised by caller-supplied code. */
    | ActionFailed(reason: string)
  {
    /** Whether a retrying execution strategy would re-run the work after this error. */
    predicate IsTransient() {
      TransientStorageFailure?
    }
  }
}
